=== FILE: README.md ===
# Sears receipt extraction and ledger merge, modelled in Dafny

This project models the data logic of three Python scripts. Together they keep a Sears order ledger, the "Concentrado Sears" workbook, up to date.

- **Extraction** (`SearsExtractor`, `scripts/extract.py`):
  - reads the first page of each payment-receipt PDF;
  - picks up the `Cheque` and `Proveedor` header values;
  - treats a line whose first token is eight digits as a data line, and parses each such line with at least six tokens into a record;
  - accumulates the records into a workbook, keeping the first row per (order number, document number) pair;
  - counts and sums the rows per document type.
- **Ledger merge** (`SearsMerger`, `scripts/merge_data.py`):
  - groups the extracted rows by order number; a repeated order is summed, takes its first row as a template and gets an audit trail of document numbers;
  - matches each extracted row against the first ledger row whose `ORDEN SEARS ` key equals it as text;
  - writes a fixed set of named columns along either the duplicate path or the plain path, counting updates and misses.
- **CSV merge** (`SearsCsvMerger`, `scripts/merge_csv_data.py`):
  - reconciles the ledger with marketplace CSV exports. Thirteen CSV columns map onto the sheet columns AB to AN.
  - a cell is rewritten only when its current value is missing, blank, or prints differently. The write keeps the cell's style.
  - every CSV row adds one report entry. Files are processed in name order.

Modules:
- `Wrappers`: `Option` and `Result`.
- `Strings`: the Python string operations used. These are `split()`, `split(c)`, `strip()`, `join` and `replace(c, '')`.
- `Values`: a spreadsheet cell value (missing, text, integer, amount in cents, date) and Python's `str()` on it.
- `Ledger`: a sheet as a header plus rows of 1-based column-to-cell maps. It also holds header lookups, the key column, first-match lookup and column letters.
- `Extract`, `Accumulate`, `Duplicates`, `Merge` and `CsvMerge`: the three scripts.

Each script's operation is a pure function from the inputs it reads to the workbook it would save:
- The PDF text, the sheets and the CSV rows are parameters.
- Row `i` of a modelled sheet is spreadsheet row `i + 2`: row 1 is the header.
- An uncaught Python exception is a `Failure`.

Where the code and its documentation differ, the model follows the code:
- CSV values are compared as printed text, not numerically.
- A header name that appears twice resolves to its last column for openpyxl writes. It resolves to its first column for pandas reads.
- Only the first PDF page is read.
- Dates are kept as the raw tokens of the receipt line.

## Model

| member | source | states |
|---|---|---|
| Strings.WordsOfJoin | scripts/extract.py:48 | `split()` of whitespace-free tokens joined by spaces gives back exactly those tokens |
| Strings.SplitOn | scripts/extract.py:43 | `split(':')` yields at least one piece, no piece contains the separator, there are two or more pieces iff the separator occurs, and joining the pieces restores the line |
| Strings.DropChar | scripts/extract.py:61 | `replace(c, '')` removes every `c` and keeps every other character with its multiplicity; a single character is kept iff it is not `c` |
| Strings.DropCharAppend | scripts/extract.py:61 | removal works piece by piece, so with the one-character case the result is the text with every `c` deleted and the other characters in their original order |
| Values.ParseShowAmount | scripts/extract.py:110 | parsing the printed form of an amount gives back the same amount in cents |
| Values.ParseShowInt | scripts/extract.py:112-113 | parsing the printed form of an integer gives back the same integer |
| Extract.Describe | scripts/extract.py:21-27 | NP and NT both describe "PEDIDO ENTREGADO", ND, DR and DV have their own texts, and exactly the codes outside the table get "OTRO" |
| Extract.HeaderValueOfField | scripts/extract.py:43 | the header value of a line is its stripped segment between the first and second colon |
| Extract.NoCheque | scripts/extract.py:39-45 | with no line containing "Cheque" the cheque value stays empty |
| Extract.LastCheque | scripts/extract.py:39-45 | the cheque value is the header value of the last line containing "Cheque" |
| Extract.NoProveedor | scripts/extract.py:39-45 | with no supplier line the supplier value stays empty |
| Extract.LastProveedor | scripts/extract.py:39-45 | the supplier value is the header value of the last line that contains "Proveedor" but not "Cheque" |
| Extract.DataLineShape | scripts/extract.py:47-50 | a line is a data line iff, after leading blanks, it begins with eight ASCII digits followed by a blank or the end of the line |
| Extract.DataLines | scripts/extract.py:47-50 | every selected line is a data line, and each data line is selected exactly as often as it occurs; a single line is selected iff it is a data line |
| Extract.DataLinesAppend | scripts/extract.py:47-50 | selection works piece by piece, so the data lines come out in page order |
| Extract.ParseParts | scripts/extract.py:55-65 | tokens 0 to 4 become the order number, order date, due date, document number and type; the total is token 5 with every '$' and ',' removed and nothing else changed; the description is the table entry of token 4; the record carries the page's cheque and supplier |
| Extract.TokensToRecord | scripts/extract.py:52-66 | a data line of six or more tokens yields exactly one record whose first five fields are tokens 0 to 4 verbatim |
| Extract.ShortLineNoRecord | scripts/extract.py:52-54 | a line of fewer than six tokens yields no record |
| Extract.ParseDataLines | scripts/extract.py:52-66 | every record carries the header pair and a clean total; a single line yields the record of its tokens iff it has at least six tokens, and nothing otherwise |
| Extract.ParseDataLinesAppend | scripts/extract.py:52-66 | parsing works line by line, so the records are those of the lines with six or more tokens, in line order |
| Extract.DataRecordsHavePedidos | scripts/extract.py:47-56 | every record parsed from data lines has an eight-digit order number |
| Extract.ExtractLines | scripts/extract.py:36-66 | the page's records are exactly the one-pass `RecordsOf`: one per data line of six or more tokens, in line order; all carry the page's cheque and supplier pair and eight-digit order numbers |
| Extract.TwoPassesAreOne | scripts/extract.py:47-66 | selecting data lines and then parsing them equals one pass that parses each line in order |
| Extract.RecordCount | scripts/extract.py:47-66 | the number of records equals the number of data lines with at least six tokens |
| Extract.ExtractPdf | scripts/extract.py:29-69 | a PDF without pages or without first-page text yields no records (the error is logged); otherwise the records are exactly `RecordsOf` the first page's lines, at most one per line |
| Extract.OnlyFirstPage | scripts/extract.py:33-35 | pages after the first never change the result |
| Extract.ProcessAll | scripts/extract.py:89-94 | files not named `*.pdf` contribute nothing; a single PDF contributes exactly its `ExtractPdf` records; every accumulated record has an eight-digit order number |
| Extract.ProcessAllAppend | scripts/extract.py:89-94 | processing two listings in sequence accumulates the concatenation of their records |
| Accumulate.StoreAll | scripts/extract.py:109-113 | one row per record, in record order; Total and Numero_Documento are read as numbers (NaN when they do not parse), type and description stay text; an extracted order number becomes the integer its digits spell, which makes the row complete |
| Accumulate.Dedup | scripts/extract.py:122 | the kept rows have pairwise distinct (order, document) keys, none of them already seen |
| Accumulate.DedupIsFirsts | scripts/extract.py:122 | `drop_duplicates(keep='first')` keeps exactly the rows whose key does not occur earlier, in their original order |
| Accumulate.DedupKeys | scripts/extract.py:122 | no key is lost: the kept rows cover every key of the input |
| Accumulate.DropDuplicatesIdempotent | scripts/extract.py:122 | deduplicating twice equals deduplicating once |
| Accumulate.DedupAppend | scripts/extract.py:116-122 | deduplicating a concatenation keeps the first part's survivors, then the second part's rows whose keys are new |
| Accumulate.ExistingRowsKept | scripts/extract.py:116-122 | a previously saved, already distinct workbook survives unchanged at the front, followed by the new rows with unseen keys |
| Accumulate.Analysis | scripts/extract.py:71-74 | the analysis is None exactly for an empty frame |
| Accumulate.AnalysisAccountsForRows | scripts/extract.py:76-82 | the per-type counts sum to the counted rows, and the per-type totals sum to the rows' totals |
| Accumulate.CountsAddUpToRows | scripts/extract.py:76-82 | when every row has its fields, the per-type counts sum to the number of rows |
| Accumulate.GroupKeys | scripts/extract.py:77 | the (type, description) groups are distinct, cover every groupable row, and each holds at least one row |
| Accumulate.GenerateExcelAsWritten | scripts/extract.py:96-125 | the code as written fails exactly when no new record was extracted; otherwise the saved rows have distinct keys and an analysis |
| Accumulate.NoRecordsCrash | scripts/extract.py:109-110 | with an empty batch, `new_df['Total']` raises, even when a saved workbook exists |
| Accumulate.GenerateExcel | scripts/extract.py:96-125 | the corrected run always produces a workbook with distinct keys; it is empty only if there is nothing at all, and only then lacks an analysis |
| Accumulate.GenerateExcelCorrected | scripts/extract.py:96-125 | with no new records the saved workbook is kept as it was; with new records the corrected run equals the code as written |
| Duplicates.Members | scripts/merge_data.py:49 | the rows of one order number, as many as it occurs: each row of that order is selected exactly as often as it occurs, and no other row |
| Duplicates.MembersAppend | scripts/merge_data.py:49 | selection works piece by piece, so the members keep input order |
| Duplicates.DuplicatedOrders | scripts/merge_data.py:42-43 | the repeated order numbers are listed once each, and an order is listed iff it occurs at least twice |
| Duplicates.Aggregate | scripts/merge_data.py:49-59 | an order's aggregated record has the order's number, a total equal to the sum of the totals of all its rows, and otherwise the fields of its first row |
| Duplicates.ProcessDuplicates | scripts/merge_data.py:39-70 | an entry exists exactly for the orders that occur at least twice; the returned list names the same orders, each once; each entry's total is the sum of the totals of all rows with that order number, and apart from the total it equals the order's first row |
| Duplicates.MembersTotal | scripts/merge_data.py:52 | summing the members' totals gives the order's total |
| Duplicates.FirstMember | scripts/merge_data.py:55 | the first member of an order is its earliest row |
| Duplicates.AuditTrail | scripts/merge_data.py:59 | splitting the audit trail at commas gives one piece per member, in input order, each the member's printed document number |
| Duplicates.SplitCommaSpace | scripts/merge_data.py:59 | a `", "`-join of unpadded, comma-free numbers splits back into those numbers |
| Ledger.ColumnByName | scripts/merge_data.py:107 | a name maps to a column iff it is in the header, and then to its last occurrence (1-based) |
| Ledger.FrameColumn | scripts/merge_data.py:93 | pandas addresses a column by the first occurrence of its name |
| Ledger.LookupsAgree | scripts/merge_data.py:93-107 | with distinct header names the two lookups agree |
| Ledger.KeyColumn | scripts/merge_data.py:93 | the key column exists iff "ORDEN SEARS " is a header name; it then has one key per row, the printed value of that row's cell under the first column of that name |
| Ledger.KeyReadsBack | scripts/merge_data.py:93-107 | with a single key column, a value assigned to a row's key cell through the header mapping is read back by the key column as its printed text |
| Ledger.FirstMatch | scripts/merge_data.py:118-121 | a key matches iff it occurs, and then at its first row |
| Ledger.SetValue | scripts/merge_data.py:126 | assigning a cell changes that cell's value only: its style, every other cell and every other row are kept |
| Ledger.SetDate | scripts/merge_data.py:133-134 | writing a date also sets the cell's number format to dd/mm/yyyy and keeps everything else |
| Ledger.IndexOfLetters | scripts/merge_csv_data.py:58 | the letters of a column index name that index |
| Ledger.LettersOfIndex | scripts/merge_csv_data.py:58 | a column name is the letters of its index |
| Merge.Apply | scripts/merge_data.py:126-158 | a run of named cell writes succeeds iff every name is a header name, and touches only the named columns of the one row |
| Merge.ApplyHolds | scripts/merge_data.py:126-158 | after the writes every named cell holds its value |
| Merge.ApplyIdempotent | scripts/merge_data.py:126-158 | repeating the same writes changes nothing |
| Merge.ToInt | scripts/merge_data.py:154 | `int()` of a missing value is None, of an integer that integer, of an amount an integer, of text the integer the stripped text spells (an error if it spells none), and of a date an error |
| Merge.ToIntTruncates | scripts/merge_data.py:154 | `int()` of an amount truncates toward zero |
| Merge.ToIntOfText | scripts/merge_data.py:154 | `int()` of a blank-padded integer text is that integer |
| Merge.DuplicateWrites | scripts/merge_data.py:126-137 | a duplicated order writes Total and OBSERVACIONES, and each date only when it is present |
| Merge.WriteDuplicate | scripts/merge_data.py:123-137 | the duplicate path succeeds iff every column it writes exists, and changes only Total, OBSERVACIONES and the two date columns of the matched row |
| Merge.DuplicateWritten | scripts/merge_data.py:126-137 | afterwards the row holds the summed total, "SUMA DE PRODUCTOS - Documentos: " and the audit trail, and the present dates as formatted dates |
| Merge.WriteDuplicateIdempotent | scripts/merge_data.py:123-139 | writing the same duplicate entry again leaves the sheet as it is |
| Merge.WritePlain | scripts/merge_data.py:145-158 | the plain path succeeds iff every column it writes exists and the document number converts; it changes only the written columns of the matched row |
| Merge.PlainHeadWritten | scripts/merge_data.py:145-151 | afterwards the row holds the row's Total, and each date that is present with the dd/mm/yyyy format |
| Merge.PlainWritten | scripts/merge_data.py:154-158 | afterwards the row holds the converted document number, type, description, cheque and supplier |
| Merge.WriteRow | scripts/merge_data.py:123-158 | a matched row changes only the written columns of its ledger row, and leaves there its order's aggregate (summed Total, audit note, present dates) when the order is duplicated, and otherwise its own fields |
| Merge.Step | scripts/merge_data.py:110-163 | one row counts as an update if its order is in the ledger and as a miss otherwise; a miss leaves the sheet as it is; a matched row leaves in its ledger row the aggregate (summed Total, audit note, present dates) when its order is duplicated, and otherwise its own Total, present dates, converted document number, type, description, cheque and supplier |
| Merge.Loop | scripts/merge_data.py:110-163 | the update and miss counters equal the numbers of reached rows that match and that do not |
| Merge.StepKeepsLanded | scripts/merge_data.py:110-158 | a later row leaves what an earlier row wrote: another order does not touch that ledger row, and the same order writes the same aggregate again or is skipped |
| Merge.LoopWrites | scripts/merge_data.py:110-158 | after the loop, the ledger row a reached extraction row wrote still holds what it wrote |
| Merge.LoopKeepsRow | scripts/merge_data.py:110-163 | a ledger row whose key is no extracted order number is never changed |
| Merge.LoopKeepsCell | scripts/merge_data.py:110-163 | cells outside the written columns keep their values, and no cell's presentation changes |
| Merge.Run | scripts/merge_data.py:92-163 | a ledger without the key column fails; otherwise header and row count are kept |
| Merge.MergeKeeps | scripts/merge_data.py:110-167 | the merge changes only the written columns of rows whose key is an extracted order number, and no presentation |
| Merge.MergeDataWrites | scripts/merge_data.py:117-158 | after a successful merge (as written or corrected), the first ledger row keyed by an extracted order holds that order's aggregate if it is duplicated, and otherwise the fields of the one row carrying it |
| Merge.GuardNeverFires | scripts/merge_data.py:113-115 | the skip guard is never true, because the aggregated orders are exactly the repeated ones |
| Merge.ReachedAll | scripts/merge_data.py:110-163 | as written, every row reaches the counters |
| Merge.MergeAsWritten | scripts/merge_data.py:92-163 | as written: a ledger without the key column fails; otherwise header and row count are kept, and updates plus misses equal the number of extracted rows |
| Merge.RepeatedOrderOvercounts | scripts/merge_data.py:113-115 | an order that occurs twice makes the row count exceed the number of distinct orders |
| Merge.AsWrittenOvercounts | scripts/merge_data.py:113-115 | as written, a repeated order number makes updates plus misses exceed the number of distinct orders |
| Merge.ReachedFirsts | scripts/merge_data.py:113-115 | with the intended skip, the counters reach only the first row of each order |
| Merge.MergeData | scripts/merge_data.py:92-163 | with the intended skip: a ledger without the key column fails; otherwise header and row count are kept, and updates plus misses equal the number of distinct extracted orders |
| CsvMerge.MappedColumns | scripts/merge_csv_data.py:27-41 | the thirteen mapped columns are AB to AN, consecutive and in mapping order |
| CsvMerge.MappedField | scripts/merge_csv_data.py:27-41 | a sheet column has a CSV field iff it lies between AB and AN, and then that field's letters name the column |
| CsvMerge.FieldOfColumn | scripts/merge_csv_data.py:27-41 | column c receives CSV field k exactly when c is the index of field k's letters |
| CsvMerge.UpdateCell | scripts/merge_csv_data.py:61-80 | a cell is rewritten iff its value is missing, prints blank after strip, or prints differently; a write stores the value, keeps the style and reports "col: old -> new"; otherwise the sheet is unchanged and the message is None |
| CsvMerge.UpdateIdempotent | scripts/merge_csv_data.py:69-80 | a second update with the same non-blank value reports no change |
| CsvMerge.BlankAlwaysRewritten | scripts/merge_csv_data.py:69-78 | a missing or blank cell is always rewritten with the new value and its old style |
| CsvMerge.ComparesText | scripts/merge_csv_data.py:68-73 | an integer 100 and an amount 100.0 are equal numbers but print differently, so the cell is rewritten |
| CsvMerge.Field | scripts/merge_csv_data.py:129 | reading a column the export lacks raises; an empty field reads as NaN |
| CsvMerge.Prepared | scripts/merge_csv_data.py:93 | `astype(str)` replaces only the "Pedido" field, by its printed form |
| CsvMerge.UpdateFields | scripts/merge_csv_data.py:127-139 | only the matched row changes, styles are kept, one message per write, and a changed cell lies in a mapped column whose field was present and non-null |
| CsvMerge.UpdateFieldsWrites | scripts/merge_csv_data.py:127-139 | every mapped field that the export has and the row holds non-null ends up in its ledger column: written, or already there with the same printed text |
| CsvMerge.MergeRow | scripts/merge_csv_data.py:114-165 | a row is "No encontrado" iff its order is not a ledger key, and then nothing changes; a matched row updates the first matching ledger row; "Actualizado" iff at least one field changed; "Sin cambios" iff the details read "Datos ya actualizados" |
| CsvMerge.MergeRowKeepsOthers | scripts/merge_csv_data.py:119-122 | ledger rows with a different key are not touched |
| CsvMerge.MergeRowCell | scripts/merge_csv_data.py:127-133 | no style changes; a changed cell is a mapped column the export has, and it holds exactly the row's non-null field for that column (the order number as text) |
| CsvMerge.MergeRowWrites | scripts/merge_csv_data.py:119-139 | a CSV row whose order is a ledger key leaves each present, non-null mapped field in the first matching ledger row, as the same printed text |
| CsvMerge.RowsLoop | scripts/merge_csv_data.py:114-165 | one report entry per CSV row; the counters equal the numbers of "Actualizado" and "No encontrado" entries |
| CsvMerge.EntryOfRow | scripts/merge_csv_data.py:147-165 | the k-th entry names the file and the k-th row's order, and is "No encontrado" iff that order is not a ledger key |
| CsvMerge.CountersBounded | scripts/merge_csv_data.py:141-165 | updates plus misses never exceed the number of entries |
| CsvMerge.RowsLoopKeepsRow | scripts/merge_csv_data.py:114-139 | a ledger row whose key no CSV row names is never changed |
| CsvMerge.RowsLoopCell | scripts/merge_csv_data.py:114-139 | styles are kept and only mapped columns receive new, non-null values |
| CsvMerge.RowsLoopStable | scripts/merge_csv_data.py:114-139 | CSV rows that do not name a ledger row's key leave that row as it was |
| CsvMerge.RowsLoopWrites | scripts/merge_csv_data.py:114-139 | after the loop, a matched CSV row that no later row repeats has each present, non-null mapped field in its ledger row, as the same printed text |
| CsvMerge.MergeCsv | scripts/merge_csv_data.py:82-191 | a file merges iff it has a "Pedido" column and the ledger has its key column; it then reports one entry per row, and updates plus misses do not exceed the rows |
| CsvMerge.MergeCsvKeeps | scripts/merge_csv_data.py:114-169 | a merged file changes only mapped columns of rows it names, and no style |
| CsvMerge.MergeCsvWrites | scripts/merge_csv_data.py:82-139 | after merging a file, a matched CSV row that no later row repeats has each present, non-null mapped field in the first matching ledger row, as the same printed text |
| CsvMerge.CsvFiles | scripts/merge_csv_data.py:200 | only `*.csv` names are kept, and each CSV entry exactly as often as it is listed; a single entry is kept iff it is a CSV name |
| CsvMerge.CsvFilesAppend | scripts/merge_csv_data.py:200 | the filter works piece by piece, so the CSV exports keep listing order |
| CsvMerge.NameLeTotal | scripts/merge_csv_data.py:205 | any two file names are ordered one way or the other |
| CsvMerge.SortByName | scripts/merge_csv_data.py:205 | the files come out sorted by name and are a permutation of the input |
| CsvMerge.MergeFiles | scripts/merge_csv_data.py:172-176 | the prior report stays in front; without an error it grows by exactly the rows of all files; for one file the result is that file's merged sheet and the prior report followed by its entries, or the untouched state and the file's error |
| CsvMerge.MergeFilesAppend | scripts/merge_csv_data.py:204-207 | merging `a + b` merges `b` into the ledger and report that `a` left, unless `a` raised, which ends the run |
| CsvMerge.ProcessAllCsvs | scripts/merge_csv_data.py:193-207 | the run merges exactly the listing's `.csv` exports, one after another in ascending name order, each into the ledger and report the previous one left; the header and row count are kept, the prior report stays a prefix, a listing without CSV names changes nothing, and a run without error adds one report entry per row of every CSV file |
| CsvMerge.ProcessAllCsvsInNameOrder | scripts/merge_csv_data.py:200-207 | for any name-sorted list of exactly the listing's CSV exports with no name twice, the run equals merging that list in that order, whatever order the directory lists them in |
| CsvMerge.SortedUnique | scripts/merge_csv_data.py:205 | two name-sorted arrangements of the same files with distinct names are the same list, so `sorted` fixes the processing order |
| CsvMerge.SortRows | scripts/merge_csv_data.py:205 | sorting the files does not change the total number of rows |

## Left out

- I/O of every kind is given as parameters or dropped: PDF text extraction, reading and saving workbooks and CSV files, backups with timestamped names, directory creation, `os.listdir`, logging, `time.sleep`, and the Node runner `run.js`.
- The report's `Fecha_Proceso` column (the wall clock) is not modelled.
- Floating point is replaced by integer cents. A printed amount has at most two decimals, which is all the receipts carry. Float rounding in sums is therefore not modelled. Values.ParseNumber gives `Missing` (NaN) for a token with three or more decimals ("1.234") or an exponent ("1e3"), where `pd.to_numeric` gives a float.
- The analysis percentages (`round(2)`) and its sort by count are not modelled. Only the counts and totals per group are.
- `pd.to_datetime` is not modelled: a date cell is a `Date` value or missing, and it is written as given.
- Cell widths, money and percent formats of the extraction workbook are not modelled. The date number format written by the ledger merge is.
- `str.isdigit()`, `str.split()` and `str.strip()` are narrowed to ASCII digits and ASCII blanks. Python also accepts other Unicode digits, and its `split()` and `strip()` also treat characters such as U+00A0, U+0085 and U+3000 as whitespace. This affects header values, the blank-cell test of the CSV update and `int()` on text.
- `int()` on text is modelled for plain signed digit strings with surrounding blanks. Underscore separators and the other forms Python accepts are not.
- pandas dtype promotion is simplified: a column keeps the value kinds of its cells, and a summed total is always an amount.
- The ledger frame is assumed to read the same rows as the workbook, so frame row `i` is sheet row `i + 2`. The extraction frame is assumed to hold all the columns the merge reads.
- A CSV value that openpyxl refuses to store, which the field loop would catch and log, is not modelled. Only the missing-column error of that loop is.
- A report read back from an existing workbook is assumed to keep its entries as they were written.
- Extract.ExtractPdf: the error path covers a PDF without pages or without text; other pdfplumber failures are not modelled.
- CsvMerge.RowsLoopWrites: says nothing about a CSV row whose order number a later row of the same file repeats, because the later row's writes then decide the cells. The same holds for CsvMerge.MergeCsvWrites.
- Merge.Run: an error raised part-way through the loop discards the partial sheet, as the source does not save it; which writes happened before the error is not stated.

## Findings

| source | as written | input that shows it | evidently intended | confidence | as-written member | corrected member |
|---|---|---|---|---|---|---|
| scripts/extract.py:109-110 | `new_df` is built from the batch and its `Total` column is read even when no PDF yielded a record, raising `KeyError` and losing the run | an empty `PDFSEARS` folder, with or without a saved workbook | rewrite the saved workbook unchanged when there is nothing new | not executed; high | Accumulate.NoRecordsCrash | Accumulate.GenerateExcelCorrected |
| scripts/merge_data.py:113-115 | the skip guard tests `pedido not in processed_duplicates`, but every repeated order is a key of that dictionary, so the guard never fires; each member row of a repeated order rewrites the same cells and is counted again | an extraction with two rows of order 12345678, both matching the ledger: updates becomes 2 for one order | handle a repeated order once, so the counters count distinct orders | not executed; medium | Merge.AsWrittenOvercounts | Merge.MergeData |

=== FILE: accumulate.dfy ===
/** `SearsExtractor.generate_excel` and `generate_analysis_from_df`: the new
    records join the accumulated 'Pedidos' sheet, duplicates on (order number,
    document number) are dropped keeping the first, and an analysis counts and
    sums the rows per document type. */
module Accumulate {
  import opened Wrappers
  import opened Strings
  import opened Values
  import opened Extract

  /** A row of the 'Pedidos' sheet, each column as pandas holds it. */
  datatype Row = Row(
    pedido: Value,
    fechaPedido: Value,
    fechaVencimiento: Value,
    documento: Value,
    tipo: Value,
    total: Value,
    descripcion: Value,
    cheque: Value,
    proveedor: Value)

  /** A new record after the numeric conversion (NaN on failure) of Total,
      Numero_Pedido and Numero_Documento; the other columns stay text. */
  function Stored(r: Record): Row {
    Row(ParseNumber(r.pedido), Text(r.fechaPedido), Text(r.fechaVencimiento),
        ParseNumber(r.documento), Text(r.tipo), ParseNumber(r.total),
        Text(r.descripcion), Text(r.cheque), Text(r.proveedor))
  }

  /** An extracted order number always survives the numeric conversion. */
  lemma StoredOrderNumber(r: Record)
    requires IsPedido(r.pedido)
    ensures Stored(r).pedido == Int(ParseDigits(r.pedido))
  {
    DigitsHaveNoPoint(r.pedido);
  }

  /** The new frame: one row per record, in record order; the amount and the
      document number read as numbers (or NaN), and an extracted order number
      as the integer its digits spell, which makes the row complete. */
  function StoreAll(records: seq<Record>): (rows: seq<Row>)
    ensures |rows| == |records|
    ensures forall i :: 0 <= i < |rows| ==> rows[i] == Stored(records[i])
    ensures forall i :: 0 <= i < |rows| ==>
              rows[i].total == ParseNumber(records[i].total)
              && rows[i].documento == ParseNumber(records[i].documento)
              && rows[i].tipo == Text(records[i].tipo)
              && rows[i].descripcion == Text(records[i].descripcion)
    ensures forall i :: 0 <= i < |rows| && IsPedido(records[i].pedido) ==>
              rows[i].pedido == Int(ParseDigits(records[i].pedido)) && Complete(rows[i])
  {
    assert forall i :: 0 <= i < |records| && IsPedido(records[i].pedido) ==>
             Stored(records[i]).pedido == Int(ParseDigits(records[i].pedido)) && Complete(Stored(records[i])) by {
      forall i | 0 <= i < |records| && IsPedido(records[i].pedido)
        ensures Stored(records[i]).pedido == Int(ParseDigits(records[i].pedido)) && Complete(Stored(records[i]))
      {
        StoredComplete(records[i]);
      }
    }
    seq(|records|, i requires 0 <= i < |records| => Stored(records[i]))
  }

  // ---------------------------------------------------------------------------
  // Dropping duplicates on (order number, document number), keeping the first
  // ---------------------------------------------------------------------------

  type Key = (Value, Value)

  /** pandas compares numbers by value (`100 == 100.0`) and NaN equal to NaN. */
  function KeyOf(r: Row): Key {
    (Canon(r.pedido), Canon(r.documento))
  }

  function KeySet(rows: seq<Row>): set<Key> {
    set i | 0 <= i < |rows| :: KeyOf(rows[i])
  }

  /** Scanning the rows with the set of keys already seen: a row is kept iff
      its key has not been seen. */
  function Dedup(rows: seq<Row>, seen: set<Key>): (r: seq<Row>)
    ensures |r| <= |rows|
    ensures forall i :: 0 <= i < |r| ==> KeyOf(r[i]) !in seen
    ensures forall i, j :: 0 <= i < j < |r| ==> KeyOf(r[i]) != KeyOf(r[j])
  {
    if |rows| == 0 then []
    else if KeyOf(rows[0]) in seen then Dedup(rows[1..], seen)
    else [rows[0]] + Dedup(rows[1..], seen + {KeyOf(rows[0])})
  }

  function DropDuplicates(rows: seq<Row>): seq<Row> {
    Dedup(rows, {})
  }

  /** Row `i` is the first with its key. */
  predicate IsFirst(rows: seq<Row>, i: nat)
    requires i < |rows|
  {
    forall j :: 0 <= j < i ==> KeyOf(rows[j]) != KeyOf(rows[i])
  }

  /** Reference definition: the rows that are the first with their key, in
      their original order. */
  function Firsts(rows: seq<Row>): seq<Row> {
    if |rows| == 0 then []
    else Firsts(rows[..|rows| - 1]) + (if IsFirst(rows, |rows| - 1) then [rows[|rows| - 1]] else [])
  }

  lemma {:induction false} DedupSnoc(rows: seq<Row>, x: Row, seen: set<Key>)
    ensures Dedup(rows + [x], seen) ==
      Dedup(rows, seen) + (if KeyOf(x) in seen + KeySet(rows) then [] else [x])
  {
    if |rows| == 0 {
      assert rows + [x] == [x];
    } else {
      var k := KeyOf(rows[0]);
      assert (rows + [x])[1..] == rows[1..] + [x];
      KeySetCons(rows);
      if k in seen {
        DedupSnoc(rows[1..], x, seen);
      } else {
        DedupSnoc(rows[1..], x, seen + {k});
      }
    }
  }

  lemma KeySetPrefix(rows: seq<Row>)
    requires |rows| > 0
    ensures KeyOf(rows[|rows| - 1]) in KeySet(rows[..|rows| - 1]) <==> !IsFirst(rows, |rows| - 1)
  {
    var p := rows[..|rows| - 1];
    var n := |rows| - 1;
    if !IsFirst(rows, n) {
      var j :| 0 <= j < n && KeyOf(rows[j]) == KeyOf(rows[n]);
      assert KeyOf(p[j]) == KeyOf(rows[n]);
    }
  }

  /** pandas' keep-first scan keeps exactly the rows that are the first with
      their key, in order. */
  lemma {:induction false} DedupIsFirsts(rows: seq<Row>)
    ensures DropDuplicates(rows) == Firsts(rows)
  {
    if |rows| > 0 {
      var p := rows[..|rows| - 1];
      var x := rows[|rows| - 1];
      DedupIsFirsts(p);
      assert rows == p + [x];
      DedupSnoc(p, x, {});
      KeySetPrefix(rows);
    }
  }

  /** No key is lost: every key of the input has a row in the output. */
  lemma {:induction false} DedupKeys(rows: seq<Row>, seen: set<Key>)
    ensures KeySet(Dedup(rows, seen)) + seen == KeySet(rows) + seen
  {
    if |rows| > 0 {
      var k := KeyOf(rows[0]);
      var r := Dedup(rows, seen);
      KeySetCons(rows);
      if k in seen {
        DedupKeys(rows[1..], seen);
      } else {
        var rest := Dedup(rows[1..], seen + {k});
        DedupKeys(rows[1..], seen + {k});
        assert r == [rows[0]] + rest;
        KeySetCons(r);
        assert r[1..] == rest;
      }
    }
  }

  predicate DistinctKeys(rows: seq<Row>) {
    forall i, j :: 0 <= i < j < |rows| ==> KeyOf(rows[i]) != KeyOf(rows[j])
  }

  /** Rows whose keys are distinct and unseen all survive. */
  lemma {:induction false} DedupOfDistinct(rows: seq<Row>, seen: set<Key>)
    requires DistinctKeys(rows)
    requires forall i :: 0 <= i < |rows| ==> KeyOf(rows[i]) !in seen
    ensures Dedup(rows, seen) == rows
  {
    if |rows| > 0 {
      var k := KeyOf(rows[0]);
      assert forall i :: 0 <= i < |rows[1..]| ==> KeyOf(rows[1..][i]) == KeyOf(rows[i + 1]);
      DedupOfDistinct(rows[1..], seen + {k});
    }
  }

  /** Dropping duplicates twice is dropping them once. */
  lemma DropDuplicatesIdempotent(rows: seq<Row>)
    ensures DropDuplicates(DropDuplicates(rows)) == DropDuplicates(rows)
  {
    DedupOfDistinct(DropDuplicates(rows), {});
  }

  lemma KeySetCons(a: seq<Row>)
    requires |a| > 0
    ensures KeySet(a) == {KeyOf(a[0])} + KeySet(a[1..])
  {
    forall y | y in KeySet(a) ensures y in {KeyOf(a[0])} + KeySet(a[1..]) {
      var i :| 0 <= i < |a| && KeyOf(a[i]) == y;
      if i > 0 {
        assert KeyOf(a[1..][i - 1]) == y;
      }
    }
    forall y | y in KeySet(a[1..]) ensures y in KeySet(a) {
      var i :| 0 <= i < |a[1..]| && KeyOf(a[1..][i]) == y;
      assert KeyOf(a[i + 1]) == y;
    }
  }

  /** Scanning `a + b` is scanning `a`, then `b` with `a`'s keys seen. */
  lemma {:induction false} DedupAppend(a: seq<Row>, b: seq<Row>, seen: set<Key>)
    ensures Dedup(a + b, seen) == Dedup(a, seen) + Dedup(b, seen + KeySet(a))
  {
    if |a| == 0 {
      assert a + b == b;
      assert KeySet(a) == {};
      assert seen + KeySet(a) == seen;
    } else {
      var k := KeyOf(a[0]);
      assert (a + b)[1..] == a[1..] + b;
      KeySetCons(a);
      if k in seen {
        DedupAppend(a[1..], b, seen);
        assert seen + KeySet(a[1..]) == seen + KeySet(a);
      } else {
        DedupAppend(a[1..], b, seen + {k});
        assert seen + {k} + KeySet(a[1..]) == seen + KeySet(a);
      }
    }
  }

  /** Accumulating never displaces a stored row: when the stored rows already
      have distinct keys, they come first and unchanged, followed by the new
      rows whose key is new (first of each). */
  lemma ExistingRowsKept(existing: seq<Row>, batch: seq<Row>)
    requires DistinctKeys(existing)
    ensures DropDuplicates(existing + batch) == existing + Dedup(batch, KeySet(existing))
  {
    DedupAppend(existing, batch, {});
    DedupOfDistinct(existing, {});
    assert {} + KeySet(existing) == KeySet(existing);
  }

  // ---------------------------------------------------------------------------
  // generate_analysis_from_df
  // ---------------------------------------------------------------------------

  type GroupKey = (Value, Value)

  /** `groupby` leaves out rows whose type or description is NaN. */
  predicate Grouped(r: Row) {
    !r.tipo.Missing? && !r.descripcion.Missing?
  }

  function GroupOf(r: Row): GroupKey {
    (Canon(r.tipo), Canon(r.descripcion))
  }

  /** What a row adds to its group: `'count'` of Numero_Pedido counts the
      non-NaN order numbers, `'sum'` of Total adds the amounts skipping NaN. */
  datatype Measure = Count | Sum

  function Weight(r: Row, m: Measure): int {
    match m
    case Count => if r.pedido.Missing? then 0 else 1
    case Sum => Cents(r.total)
  }

  /** The measure over the grouped rows whose key is in `keys`. */
  function Tally(rows: seq<Row>, keys: set<GroupKey>, m: Measure): int {
    if |rows| == 0 then 0
    else
      var r := rows[|rows| - 1];
      Tally(rows[..|rows| - 1], keys, m) + (if Grouped(r) && GroupOf(r) in keys then Weight(r, m) else 0)
  }

  /** The measure over all grouped rows. */
  function Total(rows: seq<Row>, m: Measure): int {
    if |rows| == 0 then 0
    else
      var r := rows[|rows| - 1];
      Total(rows[..|rows| - 1], m) + (if Grouped(r) then Weight(r, m) else 0)
  }

  /** How many groupable rows fall in group `g`. */
  function GroupRows(rows: seq<Row>, g: GroupKey): nat {
    if |rows| == 0 then 0
    else
      var r := rows[|rows| - 1];
      GroupRows(rows[..|rows| - 1], g) + (if Grouped(r) && GroupOf(r) == g then 1 else 0)
  }

  /** The groups, in order of first appearance: each group of a row once, and
      no group without rows. */
  function GroupKeys(rows: seq<Row>): (ks: seq<GroupKey>)
    ensures forall i, j :: 0 <= i < j < |ks| ==> ks[i] != ks[j]
    ensures forall i :: 0 <= i < |rows| && Grouped(rows[i]) ==> GroupOf(rows[i]) in ks
    ensures forall k :: 0 <= k < |ks| ==> GroupRows(rows, ks[k]) > 0
  {
    if |rows| == 0 then []
    else
      var p := rows[..|rows| - 1];
      var ks := GroupKeys(p);
      var r := rows[|rows| - 1];
      assert forall i :: 0 <= i < |p| ==> p[i] == rows[i];
      if Grouped(r) && GroupOf(r) !in ks then ks + [GroupOf(r)] else ks
  }

  datatype Group = Group(tipo: Value, descripcion: Value, count: int, totalCents: int)

  function GroupFor(rows: seq<Row>, k: GroupKey): (g: Group) {
    Group(k.0, k.1, Tally(rows, {k}, Count), Tally(rows, {k}, Sum))
  }

  /** `generate_analysis_from_df`: `None` for an empty frame, otherwise one
      entry per (type, description) group with its count and sum. */
  function Analysis(rows: seq<Row>): (a: Option<seq<Group>>)
    ensures a.None? <==> |rows| == 0
  {
    if |rows| == 0 then None
    else
      var ks := GroupKeys(rows);
      Some(seq(|ks|, i requires 0 <= i < |ks| => GroupFor(rows, ks[i])))
  }

  function SumCounts(gs: seq<Group>): int {
    if |gs| == 0 then 0 else SumCounts(gs[..|gs| - 1]) + gs[|gs| - 1].count
  }

  function SumTotals(gs: seq<Group>): int {
    if |gs| == 0 then 0 else SumTotals(gs[..|gs| - 1]) + gs[|gs| - 1].totalCents
  }

  lemma {:induction false} TallySplit(rows: seq<Row>, k: GroupKey, keys: set<GroupKey>, m: Measure)
    requires k !in keys
    ensures Tally(rows, {k} + keys, m) == Tally(rows, {k}, m) + Tally(rows, keys, m)
  {
    if |rows| > 0 {
      TallySplit(rows[..|rows| - 1], k, keys, m);
    }
  }

  lemma {:induction false} TallyAll(rows: seq<Row>, keys: set<GroupKey>, m: Measure)
    requires forall i :: 0 <= i < |rows| && Grouped(rows[i]) ==> GroupOf(rows[i]) in keys
    ensures Tally(rows, keys, m) == Total(rows, m)
  {
    if |rows| > 0 {
      var p := rows[..|rows| - 1];
      assert forall i :: 0 <= i < |p| ==> p[i] == rows[i];
      TallyAll(p, keys, m);
    }
  }

  lemma {:induction false} TallyNone(rows: seq<Row>, m: Measure)
    ensures Tally(rows, {}, m) == 0
  {
    if |rows| > 0 {
      TallyNone(rows[..|rows| - 1], m);
    }
  }

  /** Summing a measure over distinct groups is summing it over the rows of
      those groups. */
  lemma {:induction false} SumOverGroups(rows: seq<Row>, ks: seq<GroupKey>)
    requires forall i, j :: 0 <= i < j < |ks| ==> ks[i] != ks[j]
    ensures SumCounts(seq(|ks|, i requires 0 <= i < |ks| => GroupFor(rows, ks[i])))
            == Tally(rows, (set k | k in ks), Count)
    ensures SumTotals(seq(|ks|, i requires 0 <= i < |ks| => GroupFor(rows, ks[i])))
            == Tally(rows, (set k | k in ks), Sum)
  {
    var gs := seq(|ks|, i requires 0 <= i < |ks| => GroupFor(rows, ks[i]));
    if |ks| == 0 {
      assert (set k | k in ks) == {};
      TallyNone(rows, Count);
      TallyNone(rows, Sum);
    } else {
      var p := ks[..|ks| - 1];
      var last := ks[|ks| - 1];
      SumOverGroups(rows, p);
      var gp := seq(|p|, i requires 0 <= i < |p| => GroupFor(rows, p[i]));
      assert gs[..|gs| - 1] == gp;
      var sp := set k | k in p;
      assert (set k | k in ks) == {last} + sp by {
        assert ks == p + [last];
      }
      assert last !in sp;
      TallySplit(rows, last, sp, Count);
      TallySplit(rows, last, sp, Sum);
    }
  }

  /** The analysis accounts for every grouped row: its counts add up to the
      grouped rows with an order number, its sums to their totals. */
  lemma AnalysisAccountsForRows(rows: seq<Row>)
    requires |rows| > 0
    ensures SumCounts(Analysis(rows).value) == Total(rows, Count)
    ensures SumTotals(Analysis(rows).value) == Total(rows, Sum)
  {
    var ks := GroupKeys(rows);
    SumOverGroups(rows, ks);
    var s := set k | k in ks;
    forall i | 0 <= i < |rows| && Grouped(rows[i]) ensures GroupOf(rows[i]) in s {
      var j :| 0 <= j < |ks| && ks[j] == GroupOf(rows[i]);
    }
    TallyAll(rows, s, Count);
    TallyAll(rows, s, Sum);
  }

  predicate Complete(r: Row) {
    Grouped(r) && !r.pedido.Missing?
  }

  lemma {:induction false} CountComplete(rows: seq<Row>)
    requires forall i :: 0 <= i < |rows| ==> Complete(rows[i])
    ensures Total(rows, Count) == |rows|
  {
    if |rows| > 0 {
      var p := rows[..|rows| - 1];
      assert forall i :: 0 <= i < |p| ==> p[i] == rows[i];
      CountComplete(p);
    }
  }

  /** When every row has an order number, a type and a description, the
      per-type counts add up to the number of rows. */
  lemma CountsAddUpToRows(rows: seq<Row>)
    requires |rows| > 0
    requires forall i :: 0 <= i < |rows| ==> Complete(rows[i])
    ensures SumCounts(Analysis(rows).value) == |rows|
  {
    AnalysisAccountsForRows(rows);
    CountComplete(rows);
  }

  /** Every freshly extracted record is complete. */
  lemma StoredComplete(r: Record)
    requires IsPedido(r.pedido)
    ensures Stored(r).pedido == Int(ParseDigits(r.pedido))
    ensures Complete(Stored(r))
  {
    StoredOrderNumber(r);
  }

  // ---------------------------------------------------------------------------
  // generate_excel
  // ---------------------------------------------------------------------------

  /** What `generate_excel` writes: the 'Pedidos' sheet and, unless it is
      `None`, the 'Análisis' sheet. */
  datatype Workbook = Workbook(pedidos: seq<Row>, analysis: Option<seq<Group>>)

  /** `generate_excel` as written. `existing` is the 'Pedidos' sheet read back
      (empty when the file is absent or unreadable). With no new records the
      new frame has no columns at all, so selecting its Total column raises
      `KeyError` before anything is written. */
  function GenerateExcelAsWritten(existing: seq<Row>, records: seq<Record>): (w: Result<Workbook>)
    ensures w.Failure? <==> |records| == 0
    ensures w.Success? ==> DistinctKeys(w.value.pedidos)
    ensures w.Success? ==> |w.value.pedidos| <= |existing| + |records|
    ensures w.Success? ==> w.value.analysis.Some?
  {
    if |records| == 0 then Failure("KeyError: 'Total'")
    else
      var combined := DropDuplicates(existing + StoreAll(records));
      Success(Workbook(combined, Analysis(combined)))
  }

  /** A run with no new records crashes even when a sheet had been accumulated
      before, leaving the workbook unwritten. */
  lemma NoRecordsCrash(existing: seq<Row>)
    ensures GenerateExcelAsWritten(existing, []).Failure?
  {
  }

  /** `generate_excel` as intended: an empty batch leaves the accumulated rows
      as they are. */
  function GenerateExcel(existing: seq<Row>, records: seq<Record>): (w: Workbook)
    ensures DistinctKeys(w.pedidos)
    ensures |w.pedidos| <= |existing| + |records|
    ensures |w.pedidos| == 0 <==> |existing| + |records| == 0
    ensures w.analysis.None? <==> |w.pedidos| == 0
  {
    var combined := DropDuplicates(existing + StoreAll(records));
    assert |combined| == 0 ==> |existing + StoreAll(records)| == 0 by {
      if |existing + StoreAll(records)| > 0 {
        var all := existing + StoreAll(records);
        assert KeyOf(all[0]) !in {};
      }
    }
    Workbook(combined, Analysis(combined))
  }

  /** The corrected function keeps a previously accumulated sheet when there
      is nothing new, and otherwise agrees with the code as written. */
  lemma GenerateExcelCorrected(existing: seq<Row>, records: seq<Record>)
    ensures |records| == 0 && DistinctKeys(existing) ==> GenerateExcel(existing, records).pedidos == existing
    ensures |records| > 0 ==> GenerateExcelAsWritten(existing, records) == Success(GenerateExcel(existing, records))
  {
    if |records| == 0 && DistinctKeys(existing) {
      assert existing + StoreAll(records) == existing;
      DedupOfDistinct(existing, {});
    }
  }
}

=== FILE: csvmerge.dfy ===
/** `SearsCsvMerger`: marketplace CSV exports are reconciled into the ledger.
    Each CSV row is matched by its order number against the ledger's key
    column; the 13 mapped fields of a matched row are copied into columns AB
    to AN when the ledger cell is empty, blank or prints differently, and every
    CSV row adds one entry to the merge report. */
module CsvMerge {
  import opened Wrappers
  import opened Strings
  import opened Values
  import opened Ledger

  /** `column_mapping`: each CSV column and the ledger column letters it is
      copied to, in the dictionary's order. */
  const Mapping: seq<(string, string)> := [
    ("Pedido", "AB"), ("Marketplace", "AC"), ("Seller", "AD"), ("Monto", "AE"),
    ("Nombre_producto", "AF"), ("Precio", "AG"), ("sku", "AH"), ("Estatus_pedido", "AI"),
    ("Estatus_partida", "AJ"), ("Fecha_Pedido", "AK"), ("IdFulfillment", "AL"), ("NoGuia", "AM"),
    ("Tipo_envio", "AN")]

  /** The CSV column holding the order number. */
  const PedidoColumn := "Pedido"

  /** The number of column AB, the first mapped one. */
  const FirstMapped := 28

  /** The mapped letters are the consecutive columns AB, AC, ..., AN. */
  lemma MappedColumns(k: nat)
    requires k < |Mapping|
    ensures IsColumnName(Mapping[k].1) && ColumnIndex(Mapping[k].1) == FirstMapped + k
  {
    var letters := Mapping[k].1;
    assert letters == ['A', (66 + k) as char] by {
      if k == 0 {} else if k == 1 {} else if k == 2 {} else if k == 3 {} else if k == 4 {}
      else if k == 5 {} else if k == 6 {} else if k == 7 {} else if k == 8 {} else if k == 9 {}
      else if k == 10 {} else if k == 11 {} else {}
    }
    assert letters[..1] == "A";
  }

  /** The CSV field a ledger column receives, if any: the field whose letters
      name that column. */
  function MappedField(c: nat): (f: Option<string>)
    ensures f.Some? <==> FirstMapped <= c < FirstMapped + |Mapping|
    ensures f.Some? ==> f.value == Mapping[c - FirstMapped].0
    ensures f.Some? ==> IsColumnName(Mapping[c - FirstMapped].1) && ColumnIndex(Mapping[c - FirstMapped].1) == c
  {
    if FirstMapped <= c < FirstMapped + |Mapping| then
      MappedColumns(c - FirstMapped);
      Some(Mapping[c - FirstMapped].0)
    else None
  }

  /** No CSV column is mapped twice. */
  lemma MappingDistinct(i: nat, j: nat)
    requires i < j < |Mapping|
    ensures Mapping[i].0 != Mapping[j].0
  {
  }

  /** Column `c` receives field `k` exactly when `c` is the column its letters
      name. */
  lemma FieldOfColumn(c: nat, k: nat)
    requires k < |Mapping|
    ensures IsColumnName(Mapping[k].1)
    ensures MappedField(c) == Some(Mapping[k].0) <==> c == ColumnIndex(Mapping[k].1)
  {
    MappedColumns(k);
    if MappedField(c) == Some(Mapping[k].0) && c != FirstMapped + k {
      var i := c - FirstMapped;
      if i < k {
        MappingDistinct(i, k);
      } else {
        MappingDistinct(k, i);
      }
    }
  }

  // ---------------------------------------------------------------------------
  // One cell
  // ---------------------------------------------------------------------------

  /** What `update_concentrado_cell` returns, with the sheet it leaves. */
  datatype CellUpdate = CellUpdate(sheet: Sheet, updated: bool, message: Option<string>)

  /** A worksheet value in an f-string: `None` prints as "None". */
  function Format(v: Value): string {
    if v.Missing? then "None" else Show(v)
  }

  /** `update_concentrado_cell`: compares `str()` of the current cell (an empty
      cell as "") with `str()` of the new value, and writes the value, keeping
      the cell's style, when the cell is empty, blank, or prints differently. */
  function UpdateCell(s: Sheet, r: nat, c: nat, v: Value, csvCol: string): (u: CellUpdate)
    requires r < |s.rows|
    ensures u.sheet.header == s.header && |u.sheet.rows| == |s.rows|
    ensures u.sheet.rows == s.rows[r := u.sheet.rows[r]]
    ensures forall c': nat :: CellAt(u.sheet, r, c').style == CellAt(s, r, c').style
    ensures forall c': nat :: c' != c ==> CellAt(u.sheet, r, c') == CellAt(s, r, c')
    ensures var cur := CellAt(s, r, c).value;
            u.updated <==> (cur.Missing? || Strip(Show(cur)) == "" || Show(cur) != Show(v))
    ensures u.updated ==> CellAt(u.sheet, r, c).value == v
    ensures u.updated ==> u.message == Some(csvCol + ": " + Format(CellAt(s, r, c).value) + " -> " + Show(v))
    ensures !u.updated ==> u.sheet == s && u.message == None
  {
    var cur := CellAt(s, r, c).value;
    var strCurrent := if cur.Missing? then "" else Show(cur);
    if cur.Missing? || Strip(strCurrent) == "" || strCurrent != Show(v) then
      CellUpdate(SetValue(s, r, c, v), true, Some(csvCol + ": " + Format(cur) + " -> " + Show(v)))
    else
      CellUpdate(s, false, None)
  }

  /** Writing a non-null value whose text is not blank, then offering the same
      value again, reports no change and leaves the sheet alone. */
  lemma UpdateIdempotent(s: Sheet, r: nat, c: nat, v: Value, csvCol: string)
    requires r < |s.rows|
    requires !v.Missing? && Strip(Show(v)) != ""
    ensures var u := UpdateCell(s, r, c, v, csvCol);
            var w := UpdateCell(u.sheet, r, c, v, csvCol);
            !w.updated && w.message == None && w.sheet == u.sheet
  {
  }

  /** An empty or blank cell is always written, even with the text it already
      holds. */
  lemma BlankAlwaysRewritten(s: Sheet, r: nat, c: nat, v: Value, csvCol: string)
    requires r < |s.rows|
    requires CellAt(s, r, c).value.Missing? || AllSpace(Show(CellAt(s, r, c).value))
    ensures UpdateCell(s, r, c, v, csvCol).updated
    ensures CellAt(UpdateCell(s, r, c, v, csvCol).sheet, r, c) == Cell(v, CellAt(s, r, c).style)
  {
    var cur := CellAt(s, r, c).value;
    if !cur.Missing? {
      var t := Show(cur);
      TrimStartOfPadded(t, []);
      assert t + [] == t;
    }
  }

  /** The comparison is textual, not numeric: a cell holding the integer 100 is
      overwritten by the float 100.0, because "100" and "100.0" differ. */
  lemma ComparesText(s: Sheet, r: nat, c: nat, csvCol: string)
    requires r < |s.rows| && CellAt(s, r, c).value == Int(100)
    ensures Cents(Int(100)) == Cents(Amount(10000))
    ensures UpdateCell(s, r, c, Amount(10000), csvCol).updated
  {
    ShowHundred();
  }

  lemma ShowHundred()
    ensures Show(Int(100)) == "100" && Show(Amount(10000)) == "100.0"
  {
    assert Show(Int(100)) == "100";
    assert Show(Amount(10000)) == "100.0";
  }

  // ---------------------------------------------------------------------------
  // One row
  // ---------------------------------------------------------------------------

  /** A CSV export as `pd.read_csv` gives it: the file name, the column names,
      and per row the value of each column (an empty field reads as NaN). */
  datatype CsvFile = CsvFile(name: string, columns: seq<string>, rows: seq<map<string, Value>>)

  /** A field of a CSV row: `KeyError` when the export has no such column. */
  function Field(columns: seq<string>, row: map<string, Value>, col: string): (v: Result<Value>)
    ensures v.Failure? <==> col !in columns
    ensures v.Success? && col !in row ==> v.value.Missing?
  {
    if col !in columns then Failure("KeyError: '" + col + "'")
    else if col in row then Success(row[col])
    else Success(Missing)
  }

  /** The row's "Pedido" field as text, after the column is converted to
      strings (an empty field prints "nan"). */
  function PedidoText(row: map<string, Value>): string {
    Show(if PedidoColumn in row then row[PedidoColumn] else Missing)
  }

  /** The row as the loop sees it: its "Pedido" field replaced by that text. */
  function Prepared(row: map<string, Value>): (p: map<string, Value>)
    ensures PedidoColumn in p && p[PedidoColumn] == Text(PedidoText(row))
    ensures forall col :: col != PedidoColumn ==> (col in p <==> col in row)
    ensures forall col :: col != PedidoColumn && col in row ==> p[col] == row[col]
  {
    row[PedidoColumn := Text(PedidoText(row))]
  }

  /** The fields of one row that were written, and the messages. */
  datatype RowUpdate = RowUpdate(sheet: Sheet, count: nat, changes: seq<string>)

  /** Field `j` of the inner loop over the mapped fields of CSV row `row`,
      into ledger row `r`. A field whose column the export lacks raises, is
      caught and logged, and the loop goes on; a NaN field is skipped. */
  function FieldStep(u: RowUpdate, r: nat, columns: seq<string>, row: map<string, Value>, j: nat): (w: RowUpdate)
    requires r < |u.sheet.rows| && j < |Mapping|
    ensures w.sheet.header == u.sheet.header && |w.sheet.rows| == |u.sheet.rows|
  {
    var (csvCol, letters) := Mapping[j];
    match Field(columns, row, csvCol)
    case Failure(_) => u
    case Success(v) =>
      if v.Missing? then u
      else
        var x := UpdateCell(u.sheet, r, ColumnIndex(letters), v, csvCol);
        if x.updated then RowUpdate(x.sheet, u.count + 1, u.changes + [x.message.value])
        else u
  }

  /** The inner loop over the first `n` mapped fields. */
  function FieldsLoop(s: Sheet, r: nat, columns: seq<string>, row: map<string, Value>, n: nat): (u: RowUpdate)
    requires r < |s.rows| && n <= |Mapping|
    ensures u.sheet.header == s.header && |u.sheet.rows| == |s.rows|
  {
    if n == 0 then RowUpdate(s, 0, [])
    else FieldStep(FieldsLoop(s, r, columns, row, n - 1), r, columns, row, n - 1)
  }

  lemma {:induction false} FieldsLoopFrame(s: Sheet, r: nat, columns: seq<string>, row: map<string, Value>, n: nat)
    requires r < |s.rows| && n <= |Mapping|
    ensures var u := FieldsLoop(s, r, columns, row, n);
            u.sheet.rows == s.rows[r := u.sheet.rows[r]]
            && |u.changes| == u.count <= n
            && (forall c: nat :: CellAt(u.sheet, r, c).style == CellAt(s, r, c).style)
            && (forall c: nat :: CellAt(u.sheet, r, c) != CellAt(s, r, c) ==>
                  FirstMapped <= c < FirstMapped + n
                  && Field(columns, row, Mapping[c - FirstMapped].0).Success?
                  && !Field(columns, row, Mapping[c - FirstMapped].0).value.Missing?
                  && CellAt(u.sheet, r, c).value == Field(columns, row, Mapping[c - FirstMapped].0).value)
  {
    if n > 0 {
      FieldsLoopFrame(s, r, columns, row, n - 1);
      MappedColumns(n - 1);
    }
  }

  /** The inner loop, with what it keeps and what a changed cell holds. */
  function UpdateFields(s: Sheet, r: nat, columns: seq<string>, row: map<string, Value>, n: nat): (u: RowUpdate)
    requires r < |s.rows| && n <= |Mapping|
    ensures u.sheet.header == s.header && |u.sheet.rows| == |s.rows|
    ensures u.sheet.rows == s.rows[r := u.sheet.rows[r]]
    ensures |u.changes| == u.count <= n
    ensures forall c: nat :: CellAt(u.sheet, r, c).style == CellAt(s, r, c).style
    ensures forall c: nat :: CellAt(u.sheet, r, c) != CellAt(s, r, c) ==>
              FirstMapped <= c < FirstMapped + n
              && Field(columns, row, Mapping[c - FirstMapped].0).Success?
              && !Field(columns, row, Mapping[c - FirstMapped].0).value.Missing?
              && CellAt(u.sheet, r, c).value == Field(columns, row, Mapping[c - FirstMapped].0).value
  {
    FieldsLoopFrame(s, r, columns, row, n);
    FieldsLoop(s, r, columns, row, n)
  }

  /** Field `k` of the row, when the export has its column and the row a
      non-null value there, ends up in its ledger column: either written, or
      already there with the same text. */
  lemma UpdateFieldsWrites(s: Sheet, r: nat, columns: seq<string>, row: map<string, Value>, n: nat, k: nat)
    requires r < |s.rows| && k < n <= |Mapping|
    requires Mapping[k].0 in columns && Mapping[k].0 in row && !row[Mapping[k].0].Missing?
    ensures var cell := CellAt(UpdateFields(s, r, columns, row, n).sheet, r, FirstMapped + k).value;
            !cell.Missing? && Show(cell) == Show(row[Mapping[k].0])
  {
    FieldStepWrites(FieldsLoop(s, r, columns, row, k), r, columns, row, k);
    FieldsLoopKeeps(s, r, columns, row, k + 1, n, FirstMapped + k);
  }

  /** Fields `m` to `n` of the inner loop leave alone a column that is none of
      theirs. */
  lemma {:induction false} FieldsLoopKeeps(s: Sheet, r: nat, columns: seq<string>, row: map<string, Value>, m: nat, n: nat, c: nat)
    requires r < |s.rows| && m <= n <= |Mapping| && !(FirstMapped + m <= c < FirstMapped + n)
    ensures CellAt(FieldsLoop(s, r, columns, row, n).sheet, r, c) == CellAt(FieldsLoop(s, r, columns, row, m).sheet, r, c)
    decreases n
  {
    if m < n {
      FieldsLoopKeeps(s, r, columns, row, m, n - 1, c);
      FieldStepKeeps(FieldsLoop(s, r, columns, row, n - 1), r, columns, row, n - 1, c);
    }
  }

  /** A field's step touches no column but its own. */
  lemma FieldStepKeeps(u: RowUpdate, r: nat, columns: seq<string>, row: map<string, Value>, j: nat, c: nat)
    requires r < |u.sheet.rows| && j < |Mapping| && c != FirstMapped + j
    ensures CellAt(FieldStep(u, r, columns, row, j).sheet, r, c) == CellAt(u.sheet, r, c)
  {
    MappedColumns(j);
  }

  /** A present, non-null field's step leaves its text in its own column. */
  lemma FieldStepWrites(u: RowUpdate, r: nat, columns: seq<string>, row: map<string, Value>, j: nat)
    requires r < |u.sheet.rows| && j < |Mapping|
    requires Mapping[j].0 in columns && Mapping[j].0 in row && !row[Mapping[j].0].Missing?
    ensures var cell := CellAt(FieldStep(u, r, columns, row, j).sheet, r, FirstMapped + j).value;
            !cell.Missing? && Show(cell) == Show(row[Mapping[j].0])
  {
    MappedColumns(j);
  }

  /** The report's `Estado`. */
  datatype Status = Updated | Unchanged | NotFound

  function StatusText(st: Status): string {
    match st
    case Updated => "Actualizado"
    case Unchanged => "Sin cambios"
    case NotFound => "No encontrado"
  }

  /** One report row; `Fecha_Proceso` (the wall clock) is not modelled. */
  datatype Entry = Entry(origin: string, pedido: string, status: Status, details: string)

  /** The report entry and the ledger after one CSV row. */
  datatype RowResult = RowResult(sheet: Sheet, entry: Entry)

  /** One pass of the outer loop: the first ledger row whose key equals the
      order number gets the row's fields; the report records what happened. */
  function MergeRow(s: Sheet, keys: seq<string>, f: CsvFile, row: map<string, Value>): (res: RowResult)
    requires |keys| == |s.rows|
    ensures res.sheet.header == s.header && |res.sheet.rows| == |s.rows|
    ensures res.entry.origin == f.name && res.entry.pedido == PedidoText(row)
    ensures res.entry.status == NotFound <==> PedidoText(row) !in keys
    ensures res.entry.status == NotFound ==>
              res.sheet == s && res.entry.details == "Pedido no existe en Concentrado Sears"
    ensures res.entry.status == Unchanged <==> res.entry.details == "Datos ya actualizados"
    ensures res.entry.status != NotFound ==>
              var r := FirstMatch(keys, PedidoText(row)).value;
              res.sheet == UpdateFields(s, r, f.columns, Prepared(row), |Mapping|).sheet
              && (res.entry.status == Updated <==> UpdateFields(s, r, f.columns, Prepared(row), |Mapping|).count > 0)
  {
    var pedido := PedidoText(row);
    match FirstMatch(keys, pedido)
    case None => RowResult(s, Entry(f.name, pedido, NotFound, "Pedido no existe en Concentrado Sears"))
    case Some(r) =>
      var u := UpdateFields(s, r, f.columns, Prepared(row), |Mapping|);
      if |u.changes| > 0 then
        var details := NatToString(u.count) + " campos actualizados: " + Join(u.changes, ", ");
        assert details[0] != 'D' by { assert details[0] == NatToString(u.count)[0]; }
        RowResult(u.sheet, Entry(f.name, pedido, Updated, details))
      else
        RowResult(u.sheet, Entry(f.name, pedido, Unchanged, "Datos ya actualizados"))
  }

  /** Row `r` of the ledger is only written by a CSV row whose order number is
      that row's key. */
  lemma MergeRowKeepsOthers(s: Sheet, keys: seq<string>, f: CsvFile, row: map<string, Value>, r: nat)
    requires |keys| == |s.rows| && r < |s.rows| && keys[r] != PedidoText(row)
    ensures MergeRow(s, keys, f, row).sheet.rows[r] == s.rows[r]
  {
  }

  /** A CSV row changes no cell's style, and no cell outside the mapped
      columns; a changed cell holds the row's non-null field for its column
      (the order number as text). */
  lemma MergeRowCell(s: Sheet, keys: seq<string>, f: CsvFile, row: map<string, Value>, r: nat, c: nat)
    requires |keys| == |s.rows|
    ensures var t := MergeRow(s, keys, f, row).sheet;
            CellAt(t, r, c).style == CellAt(s, r, c).style
            && (CellAt(t, r, c) != CellAt(s, r, c) ==>
                  MappedField(c).Some? && MappedField(c).value in f.columns
                  && MappedField(c).value in Prepared(row)
                  && CellAt(t, r, c).value == Prepared(row)[MappedField(c).value]
                  && CellAt(t, r, c).value != Missing)
  {
    var res := MergeRow(s, keys, f, row);
    if res.entry.status != NotFound {
      var m := FirstMatch(keys, PedidoText(row)).value;
      if r != m && r < |s.rows| {
        assert res.sheet.rows[r] == s.rows[r];
      }
    }
  }

  /** A CSV row whose order number is a ledger key leaves each of its mapped,
      non-null fields in the first matching ledger row, as the same text. */
  lemma MergeRowWrites(s: Sheet, keys: seq<string>, f: CsvFile, row: map<string, Value>, k: nat)
    requires |keys| == |s.rows| && PedidoText(row) in keys && k < |Mapping|
    requires Mapping[k].0 in f.columns && Mapping[k].0 in Prepared(row) && !Prepared(row)[Mapping[k].0].Missing?
    ensures var cell := CellAt(MergeRow(s, keys, f, row).sheet, FirstMatch(keys, PedidoText(row)).value, FirstMapped + k).value;
            !cell.Missing? && Show(cell) == Show(Prepared(row)[Mapping[k].0])
  {
    var r := FirstMatch(keys, PedidoText(row)).value;
    UpdateFieldsWrites(s, r, f.columns, Prepared(row), |Mapping|, k);
  }

  // ---------------------------------------------------------------------------
  // One file
  // ---------------------------------------------------------------------------

  /** The ledger, the two counters and the report entries so far. */
  datatype CsvRun = CsvRun(sheet: Sheet, updates: nat, noMatches: nat, entries: seq<Entry>)

  /** How many entries have status `st`. */
  function CountStatus(entries: seq<Entry>, st: Status): (n: nat)
    ensures n <= |entries|
  {
    if |entries| == 0 then 0
    else CountStatus(entries[..|entries| - 1], st) + (if entries[|entries| - 1].status == st then 1 else 0)
  }

  /** The outer loop over the first `n` rows of export `f`. */
  function RowsLoop(s0: Sheet, keys: seq<string>, f: CsvFile, n: nat): (run: CsvRun)
    requires n <= |f.rows| && |keys| == |s0.rows|
    ensures run.sheet.header == s0.header && |run.sheet.rows| == |s0.rows|
    ensures |run.entries| == n
    ensures run.updates == CountStatus(run.entries, Updated)
    ensures run.noMatches == CountStatus(run.entries, NotFound)
  {
    if n == 0 then CsvRun(s0, 0, 0, [])
    else
      var t := RowsLoop(s0, keys, f, n - 1);
      var res := MergeRow(t.sheet, keys, f, f.rows[n - 1]);
      var entries := t.entries + [res.entry];
      assert entries[..|entries| - 1] == t.entries;
      CsvRun(res.sheet,
             t.updates + (if res.entry.status == Updated then 1 else 0),
             t.noMatches + (if res.entry.status == NotFound then 1 else 0),
             entries)
  }

  /** Entry `k` is the report of CSV row `k`: its file, its order number, and
      "No encontrado" exactly when no ledger key equals that number. */
  lemma {:induction false} EntryOfRow(s0: Sheet, keys: seq<string>, f: CsvFile, n: nat, k: nat)
    requires n <= |f.rows| && |keys| == |s0.rows| && k < n
    ensures var e := RowsLoop(s0, keys, f, n).entries[k];
            e.origin == f.name && e.pedido == PedidoText(f.rows[k])
            && (e.status == NotFound <==> PedidoText(f.rows[k]) !in keys)
  {
    if k < n - 1 {
      EntryOfRow(s0, keys, f, n - 1, k);
    }
  }

  /** No entry is both updated and not found, so the two counters together
      never exceed the number of rows. */
  lemma {:induction false} CountersBounded(entries: seq<Entry>)
    ensures CountStatus(entries, Updated) + CountStatus(entries, NotFound) <= |entries|
  {
    if |entries| > 0 {
      CountersBounded(entries[..|entries| - 1]);
    }
  }

  /** The set of order numbers of the first `n` rows. */
  function PedidosOf(f: CsvFile, n: nat): set<string>
    requires n <= |f.rows|
  {
    set k | 0 <= k < n :: PedidoText(f.rows[k])
  }

  /** A ledger row whose key none of the rows read so far carries is left as
      it was. */
  lemma {:induction false} RowsLoopKeepsRow(s0: Sheet, keys: seq<string>, f: CsvFile, n: nat, r: nat)
    requires n <= |f.rows| && |keys| == |s0.rows|
    requires r < |s0.rows| && keys[r] !in PedidosOf(f, n)
    ensures RowsLoop(s0, keys, f, n).sheet.rows[r] == s0.rows[r]
  {
    if n > 0 {
      assert PedidoText(f.rows[n - 1]) in PedidosOf(f, n);
      assert PedidosOf(f, n - 1) <= PedidosOf(f, n);
      RowsLoopKeepsRow(s0, keys, f, n - 1, r);
      var t := RowsLoop(s0, keys, f, n - 1);
      MergeRowKeepsOthers(t.sheet, keys, f, f.rows[n - 1], r);
    }
  }

  /** The loop changes no cell's style, and no cell outside columns AB to AN;
      a cell it changes holds a non-null value. */
  lemma {:induction false} RowsLoopCell(s0: Sheet, keys: seq<string>, f: CsvFile, n: nat, r: nat, c: nat)
    requires n <= |f.rows| && |keys| == |s0.rows|
    ensures var t := RowsLoop(s0, keys, f, n).sheet;
            CellAt(t, r, c).style == CellAt(s0, r, c).style
            && (CellAt(t, r, c) != CellAt(s0, r, c) ==> MappedField(c).Some? && CellAt(t, r, c).value != Missing)
  {
    if n > 0 {
      RowsLoopCell(s0, keys, f, n - 1, r, c);
      var t := RowsLoop(s0, keys, f, n - 1);
      MergeRowCell(t.sheet, keys, f, f.rows[n - 1], r, c);
    }
  }

  /** The sheet after `n` CSV rows is CSV row `n - 1` merged into the sheet
      the first `n - 1` rows left. */
  lemma RowsLoopStep(s0: Sheet, keys: seq<string>, f: CsvFile, n: nat)
    requires 0 < n <= |f.rows| && |keys| == |s0.rows|
    ensures RowsLoop(s0, keys, f, n).sheet == MergeRow(RowsLoop(s0, keys, f, n - 1).sheet, keys, f, f.rows[n - 1]).sheet
  {
  }

  /** Rows `m` to `n` of the export leave alone a ledger row whose key none
      of them carries. */
  lemma {:induction false} RowsLoopStable(s0: Sheet, keys: seq<string>, f: CsvFile, m: nat, n: nat, r: nat)
    requires m <= n <= |f.rows| && |keys| == |s0.rows| && r < |s0.rows|
    requires forall i :: m <= i < n ==> PedidoText(f.rows[i]) != keys[r]
    ensures RowsLoop(s0, keys, f, n).sheet.rows[r] == RowsLoop(s0, keys, f, m).sheet.rows[r]
    decreases n
  {
    if m < n {
      RowsLoopStable(s0, keys, f, m, n - 1, r);
      RowsLoopStep(s0, keys, f, n);
      MergeRowKeepsOthers(RowsLoop(s0, keys, f, n - 1).sheet, keys, f, f.rows[n - 1], r);
    }
  }

  /** After the loop, a CSV row whose order number is a ledger key and that
      no later row repeats has left each mapped, non-null field in the first
      matching ledger row, as the same text. */
  lemma RowsLoopWrites(s0: Sheet, keys: seq<string>, f: CsvFile, n: nat, j: nat, k: nat)
    requires n <= |f.rows| && |keys| == |s0.rows| && j < n && k < |Mapping|
    requires PedidoText(f.rows[j]) in keys
    requires forall i :: j < i < n ==> PedidoText(f.rows[i]) != PedidoText(f.rows[j])
    requires Mapping[k].0 in f.columns && Mapping[k].0 in Prepared(f.rows[j])
    requires !Prepared(f.rows[j])[Mapping[k].0].Missing?
    ensures var r := FirstMatch(keys, PedidoText(f.rows[j])).value;
            var cell := CellAt(RowsLoop(s0, keys, f, n).sheet, r, FirstMapped + k).value;
            !cell.Missing? && Show(cell) == Show(Prepared(f.rows[j])[Mapping[k].0])
  {
    var r := FirstMatch(keys, PedidoText(f.rows[j])).value;
    MergeRowWrites(RowsLoop(s0, keys, f, j).sheet, keys, f, f.rows[j], k);
    RowsLoopStep(s0, keys, f, j + 1);
    RowsLoopStable(s0, keys, f, j + 1, n, r);
  }

  /** `merge_csv_data` on one export: `KeyError` when the export has no
      "Pedido" column or the ledger no "ORDEN SEARS " column; otherwise one
      report entry per CSV row. */
  function MergeCsv(s: Sheet, f: CsvFile): (r: Result<CsvRun>)
    ensures r.Success? <==> PedidoColumn in f.columns && KeyHeader in s.header
    ensures r.Success? ==> r.value.sheet.header == s.header && |r.value.sheet.rows| == |s.rows|
    ensures r.Success? ==> |r.value.entries| == |f.rows|
    ensures r.Success? ==> r.value.updates + r.value.noMatches <= |f.rows|
  {
    if PedidoColumn !in f.columns then Failure("KeyError: 'Pedido'")
    else
      var keys :- KeyColumn(s);
      var run := RowsLoop(s, keys, f, |f.rows|);
      CountersBounded(run.entries);
      Success(run)
  }

  /** What one export leaves alone: every cell's style, every cell outside
      columns AB to AN, and every ledger row whose key is none of its order
      numbers; and every written cell holds a non-null value. */
  lemma MergeCsvKeeps(s: Sheet, f: CsvFile)
    requires MergeCsv(s, f).Success?
    ensures var t := MergeCsv(s, f).value.sheet;
            (forall r: nat, c: nat :: CellAt(t, r, c).style == CellAt(s, r, c).style)
            && (forall r: nat, c: nat :: CellAt(t, r, c) != CellAt(s, r, c) ==>
                  MappedField(c).Some? && CellAt(t, r, c).value != Missing)
            && (forall r :: 0 <= r < |s.rows| && KeyColumn(s).value[r] !in PedidosOf(f, |f.rows|) ==>
                  t.rows[r] == s.rows[r])
  {
    var keys := KeyColumn(s).value;
    forall r: nat, c: nat
      ensures var t := MergeCsv(s, f).value.sheet;
              CellAt(t, r, c).style == CellAt(s, r, c).style
              && (CellAt(t, r, c) != CellAt(s, r, c) ==> MappedField(c).Some? && CellAt(t, r, c).value != Missing)
    {
      RowsLoopCell(s, keys, f, |f.rows|, r, c);
    }
    forall r | 0 <= r < |s.rows| && keys[r] !in PedidosOf(f, |f.rows|)
      ensures MergeCsv(s, f).value.sheet.rows[r] == s.rows[r]
    {
      RowsLoopKeepsRow(s, keys, f, |f.rows|, r);
    }
  }

  /** After merging one export, a CSV row whose order number is a ledger key
      and that no later row repeats has left each mapped, non-null field in
      the first matching ledger row, as the same text. */
  lemma MergeCsvWrites(s: Sheet, f: CsvFile, j: nat, k: nat)
    requires j < |f.rows| && k < |Mapping|
    requires forall i :: j < i < |f.rows| ==> PedidoText(f.rows[i]) != PedidoText(f.rows[j])
    requires Mapping[k].0 in f.columns && Mapping[k].0 in Prepared(f.rows[j])
    requires !Prepared(f.rows[j])[Mapping[k].0].Missing?
    ensures MergeCsv(s, f).Success? && PedidoText(f.rows[j]) in KeyColumn(s).value ==>
              var r := FirstMatch(KeyColumn(s).value, PedidoText(f.rows[j])).value;
              var cell := CellAt(MergeCsv(s, f).value.sheet, r, FirstMapped + k).value;
              !cell.Missing? && Show(cell) == Show(Prepared(f.rows[j])[Mapping[k].0])
  {
    if MergeCsv(s, f).Success? && PedidoText(f.rows[j]) in KeyColumn(s).value {
      RowsLoopWrites(s, KeyColumn(s).value, f, |f.rows|, j, k);
    }
  }

  // ---------------------------------------------------------------------------
  // All files
  // ---------------------------------------------------------------------------

  predicate IsCsvName(name: string) {
    EndsWith(name, ".csv")
  }

  /** The filter of the listing on ".csv" names, entry by entry. */
  function CsvEntries(listing: seq<CsvFile>): seq<CsvFile> {
    if |listing| == 0 then []
    else (if IsCsvName(listing[0].name) then [listing[0]] else []) + CsvEntries(listing[1..])
  }

  lemma {:induction false} CsvEntriesCounts(listing: seq<CsvFile>)
    ensures forall k :: 0 <= k < |CsvEntries(listing)| ==> IsCsvName(CsvEntries(listing)[k].name)
    ensures forall x :: multiset(CsvEntries(listing))[x] == (if IsCsvName(x.name) then multiset(listing)[x] else 0)
  {
    if |listing| > 0 {
      CsvEntriesCounts(listing[1..]);
      assert listing == [listing[0]] + listing[1..];
    }
  }

  /** The entries of the directory listing whose names end in ".csv", in
      listing order. */
  function CsvFiles(listing: seq<CsvFile>): (fs: seq<CsvFile>)
    ensures forall k :: 0 <= k < |fs| ==> IsCsvName(fs[k].name)
    ensures multiset(fs) <= multiset(listing)
    ensures forall x :: multiset(fs)[x] == (if IsCsvName(x.name) then multiset(listing)[x] else 0)
    ensures |listing| == 1 ==> fs == (if IsCsvName(listing[0].name) then listing else [])
  {
    CsvEntriesCounts(listing);
    assert |listing| == 1 ==> CsvEntries(listing) == (if IsCsvName(listing[0].name) then listing else []) by {
      if |listing| == 1 {
        assert listing == [listing[0]];
        assert CsvEntries(listing[1..]) == [];
      }
    }
    CsvEntries(listing)
  }

  /** The filter works piece by piece: with the one-entry case, every CSV
      export of the listing is kept, in listing order, and nothing else. */
  lemma CsvFilesAppend(a: seq<CsvFile>, b: seq<CsvFile>)
    ensures CsvFiles(a + b) == CsvFiles(a) + CsvFiles(b)
  {
    CsvEntriesAppend(a, b);
  }

  lemma {:induction false} CsvEntriesAppend(a: seq<CsvFile>, b: seq<CsvFile>)
    ensures CsvEntries(a + b) == CsvEntries(a) + CsvEntries(b)
  {
    if a == [] {
      assert a + b == b;
    } else {
      assert (a + b)[0] == a[0];
      assert (a + b)[1..] == a[1..] + b;
      CsvEntriesAppend(a[1..], b);
    }
  }

  /** Python's `a <= b` on strings: code points compared left to right, a
      proper prefix first. */
  predicate NameLe(a: string, b: string) {
    a == [] || (b != [] && (a[0] < b[0] || (a[0] == b[0] && NameLe(a[1..], b[1..]))))
  }

  lemma {:induction false} NameLeTotal(a: string, b: string)
    ensures NameLe(a, b) || NameLe(b, a)
  {
    if a != [] && b != [] && a[0] == b[0] {
      NameLeTotal(a[1..], b[1..]);
    }
  }

  predicate SortedByName(fs: seq<CsvFile>) {
    forall k :: 0 <= k < |fs| - 1 ==> NameLe(fs[k].name, fs[k + 1].name)
  }

  function Insert(f: CsvFile, fs: seq<CsvFile>): (r: seq<CsvFile>)
    ensures multiset(r) == multiset(fs) + multiset{f}
    ensures |r| == |fs| + 1
    ensures r[0] == f || (|fs| > 0 && r[0] == fs[0])
    ensures SortedByName(fs) ==> SortedByName(r)
  {
    if |fs| == 0 then [f]
    else if NameLe(f.name, fs[0].name) then [f] + fs
    else
      NameLeTotal(f.name, fs[0].name);
      var rest := Insert(f, fs[1..]);
      assert fs == [fs[0]] + fs[1..];
      assert SortedByName(fs) ==> SortedByName(fs[1..]);
      [fs[0]] + rest
  }

  /** `sorted(csv_files)` by name. */
  function SortByName(fs: seq<CsvFile>): (r: seq<CsvFile>)
    ensures SortedByName(r)
    ensures multiset(r) == multiset(fs)
  {
    if |fs| == 0 then []
    else
      assert fs == [fs[0]] + fs[1..];
      Insert(fs[0], SortByName(fs[1..]))
  }

  /** The ledger and the report after processing files in order, and the
      error that stopped the run, if any. A failing file leaves both as the
      previous file saved them. */
  datatype Outcome = Outcome(sheet: Sheet, report: seq<Entry>, error: Option<string>)

  function TotalRows(fs: seq<CsvFile>): nat {
    if |fs| == 0 then 0 else |fs[0].rows| + TotalRows(fs[1..])
  }

  /** Each file is merged into the ledger the previous one saved, and its
      entries are appended after the saved report's; the first exception ends
      the run. */
  function MergeFiles(s: Sheet, report: seq<Entry>, fs: seq<CsvFile>): (o: Outcome)
    ensures o.sheet.header == s.header && |o.sheet.rows| == |s.rows|
    ensures |o.report| >= |report| && o.report[..|report|] == report
    ensures o.error.None? ==> |o.report| == |report| + TotalRows(fs)
    ensures |fs| == 1 && MergeCsv(s, fs[0]).Success? ==>
              o == Outcome(MergeCsv(s, fs[0]).value.sheet, report + MergeCsv(s, fs[0]).value.entries, None)
    ensures |fs| == 1 && MergeCsv(s, fs[0]).Failure? ==> o == Outcome(s, report, Some(MergeCsv(s, fs[0]).error))
    decreases |fs|
  {
    if |fs| == 0 then Outcome(s, report, None)
    else
      match MergeCsv(s, fs[0])
      case Failure(e) => Outcome(s, report, Some(e))
      case Success(run) =>
        var o := MergeFiles(run.sheet, report + run.entries, fs[1..]);
        assert o.report[..|report|] == (o.report[..|report + run.entries|])[..|report|];
        o
  }

  /** Merging `a + b` is merging `a` and then, when that raised nothing,
      merging `b` into the ledger and report `a` left; an exception in `a`
      ends the run before `b`. */
  lemma {:induction false} MergeFilesAppend(s: Sheet, report: seq<Entry>, a: seq<CsvFile>, b: seq<CsvFile>)
    ensures var o := MergeFiles(s, report, a);
            MergeFiles(s, report, a + b) == (if o.error.None? then MergeFiles(o.sheet, o.report, b) else o)
    decreases |a|
  {
    if |a| == 0 {
      assert a + b == b;
    } else {
      assert (a + b)[0] == a[0];
      assert (a + b)[1..] == a[1..] + b;
      match MergeCsv(s, a[0])
      case Failure(_) =>
      case Success(run) => MergeFilesAppend(run.sheet, report + run.entries, a[1..], b);
    }
  }

  /** `process_all_csvs`: the CSV exports of the input directory, in sorted
      name order. Without errors, the report grows by exactly one entry per
      row of every CSV export, whatever order the directory lists them in. */
  function ProcessAllCsvs(s: Sheet, report: seq<Entry>, listing: seq<CsvFile>): (o: Outcome)
    ensures o == MergeFiles(s, report, SortByName(CsvFiles(listing)))
    ensures o.sheet.header == s.header && |o.sheet.rows| == |s.rows|
    ensures |o.report| >= |report| && o.report[..|report|] == report
    ensures (forall k :: 0 <= k < |listing| ==> !IsCsvName(listing[k].name)) ==> o == Outcome(s, report, None)
    ensures o.error.None? ==> |o.report| == |report| + TotalRows(CsvFiles(listing))
  {
    var fs := CsvFiles(listing);
    assert |fs| > 0 ==> fs[0] in multiset(listing) && fs[0] in listing;
    SortRows(fs);
    MergeFiles(s, report, SortByName(fs))
  }

  /** The CSV exports are merged one by one in ascending name order: any
      name-sorted arrangement of exactly the listing's CSV exports, with no
      name twice (as a directory gives), is the order the run uses. */
  lemma ProcessAllCsvsInNameOrder(s: Sheet, report: seq<Entry>, listing: seq<CsvFile>, fs: seq<CsvFile>)
    requires SortedByName(fs) && DistinctNames(fs)
    requires multiset(fs) == multiset(CsvFiles(listing))
    ensures ProcessAllCsvs(s, report, listing) == MergeFiles(s, report, fs)
  {
    SortedUnique(fs, SortByName(CsvFiles(listing)));
  }

  predicate DistinctNames(fs: seq<CsvFile>) {
    forall i, j :: 0 <= i < j < |fs| ==> fs[i].name != fs[j].name
  }

  lemma {:induction false} NameLeTrans(a: string, b: string, c: string)
    requires NameLe(a, b) && NameLe(b, c)
    ensures NameLe(a, c)
  {
    if a != [] && b != [] && c != [] && a[0] == b[0] == c[0] {
      NameLeTrans(a[1..], b[1..], c[1..]);
    }
  }

  lemma {:induction false} NameLeAntisymmetric(a: string, b: string)
    requires NameLe(a, b) && NameLe(b, a)
    ensures a == b
  {
    if a != [] {
      NameLeAntisymmetric(a[1..], b[1..]);
      assert a == [a[0]] + a[1..] && b == [b[0]] + b[1..];
    }
  }

  /** In a name-sorted list the first name is the least. */
  lemma {:induction false} SortedFirstLeast(fs: seq<CsvFile>, i: nat)
    requires SortedByName(fs) && i < |fs|
    ensures NameLe(fs[0].name, fs[i].name)
  {
    if i == 0 {
      NameLeTotal(fs[0].name, fs[0].name);
    } else {
      SortedFirstLeast(fs, i - 1);
      NameLeTrans(fs[0].name, fs[i - 1].name, fs[i].name);
    }
  }

  /** Two name-sorted arrangements of the same files, no name twice, start
      with the same file. */
  lemma SortedHeads(a: seq<CsvFile>, b: seq<CsvFile>)
    requires SortedByName(a) && SortedByName(b) && DistinctNames(a)
    requires multiset(a) == multiset(b) && |a| > 0 && |b| > 0
    ensures a[0] == b[0]
  {
    assert a[0] in multiset(b) && b[0] in multiset(a);
    var j :| 0 <= j < |b| && b[j] == a[0];
    var i :| 0 <= i < |a| && a[i] == b[0];
    SortedFirstLeast(a, i);
    SortedFirstLeast(b, j);
    NameLeAntisymmetric(a[0].name, b[0].name);
  }

  lemma TailMultiset(a: seq<CsvFile>)
    requires |a| > 0
    ensures multiset(a[1..]) == multiset(a) - multiset{a[0]}
  {
    assert a == [a[0]] + a[1..];
  }

  /** Two name-sorted arrangements of the same files, no name twice, are the
      same list: sorting by name leaves no choice. */
  lemma {:induction false} SortedUnique(a: seq<CsvFile>, b: seq<CsvFile>)
    requires SortedByName(a) && SortedByName(b) && DistinctNames(a)
    requires multiset(a) == multiset(b)
    ensures a == b
    decreases |a|
  {
    assert |a| == |multiset(a)| == |multiset(b)| == |b|;
    if |a| > 0 {
      SortedHeads(a, b);
      TailMultiset(a);
      TailMultiset(b);
      SortedUnique(a[1..], b[1..]);
      assert a == [a[0]] + a[1..] && b == [b[0]] + b[1..];
    }
  }

  lemma {:induction false} InsertRows(f: CsvFile, fs: seq<CsvFile>)
    ensures TotalRows(Insert(f, fs)) == |f.rows| + TotalRows(fs)
  {
    if |fs| > 0 && !NameLe(f.name, fs[0].name) {
      InsertRows(f, fs[1..]);
      assert ([fs[0]] + Insert(f, fs[1..]))[1..] == Insert(f, fs[1..]);
    }
  }

  /** Sorting loses and adds no rows. */
  lemma {:induction false} SortRows(fs: seq<CsvFile>)
    ensures TotalRows(SortByName(fs)) == TotalRows(fs)
  {
    if |fs| > 0 {
      SortRows(fs[1..]);
      InsertRows(fs[0], SortByName(fs[1..]));
    }
  }
}

=== FILE: duplicates.dfy ===
/** `SearsMerger.process_duplicates`: order numbers that occur more than once in
    the extraction sheet are folded into one aggregated record each, whose total
    is the sum of the group's totals and which lists the group's document
    numbers. */
module Duplicates {
  import opened Strings
  import opened Values

  /** A row of the extraction sheet as `merge_data` holds it: the order number
      already text (`astype(str)`), the dates after `pd.to_datetime`. */
  datatype Extraction = Extraction(
    pedido: string,
    fechaPedido: Value,
    fechaVencimiento: Value,
    documento: Value,
    tipo: Value,
    total: Value,
    descripcion: Value,
    cheque: Value,
    proveedor: Value)

  /** How many rows carry order number `p`. */
  function CountOrder(rows: seq<Extraction>, p: string): nat {
    if |rows| == 0 then 0
    else CountOrder(rows[..|rows| - 1], p) + (if rows[|rows| - 1].pedido == p then 1 else 0)
  }

  /** Row `i` is the first row of its order number. */
  predicate FirstOfOrder(rows: seq<Extraction>, i: nat)
    requires i < |rows|
  {
    forall j :: 0 <= j < i ==> rows[j].pedido != rows[i].pedido
  }

  /** The rows whose order number equals `p` (the boolean-mask selection of
      `process_duplicates`), in sheet order. */
  function Members(rows: seq<Extraction>, p: string): (ms: seq<Extraction>)
    ensures |ms| == CountOrder(rows, p)
    ensures forall k :: 0 <= k < |ms| ==> ms[k].pedido == p
    ensures forall x :: multiset(ms)[x] == (if x.pedido == p then multiset(rows)[x] else 0)
    ensures |rows| == 1 ==> ms == (if rows[0].pedido == p then rows else [])
  {
    if |rows| == 0 then []
    else
      var ms := Members(rows[..|rows| - 1], p);
      assert rows == rows[..|rows| - 1] + [rows[|rows| - 1]];
      if rows[|rows| - 1].pedido == p then ms + [rows[|rows| - 1]] else ms
  }

  /** The selection works piece by piece: with the one-row case, the members
      are exactly the rows of order `p`, kept in sheet order. */
  lemma {:induction false} MembersAppend(a: seq<Extraction>, b: seq<Extraction>, p: string)
    ensures Members(a + b, p) == Members(a, p) + Members(b, p)
  {
    if b == [] {
      assert a + b == a;
    } else {
      var b' := b[..|b| - 1];
      assert (a + b)[..|a + b| - 1] == a + b';
      assert (a + b)[|a + b| - 1] == b[|b| - 1];
      MembersAppend(a, b', p);
    }
  }

  /** The order numbers, among the first `n` rows, that occur at least twice
      in the whole sheet: once each, in order of first appearance. */
  function DuplicatedUpTo(rows: seq<Extraction>, n: nat): (d: seq<string>)
    requires n <= |rows|
    ensures forall i, j :: 0 <= i < j < |d| ==> d[i] != d[j]
    ensures forall q :: q in d <==> CountOrder(rows, q) >= 2 && CountOrder(rows[..n], q) >= 1
  {
    if n == 0 then []
    else
      var d := DuplicatedUpTo(rows, n - 1);
      var p := rows[n - 1].pedido;
      assert rows[..n][..n - 1] == rows[..n - 1];
      if CountOrder(rows, p) >= 2 && p !in d then d + [p] else d
  }

  function DuplicatedOrders(rows: seq<Extraction>): (d: seq<string>)
    ensures forall i, j :: 0 <= i < j < |d| ==> d[i] != d[j]
    ensures forall q :: q in d <==> CountOrder(rows, q) >= 2
  {
    assert rows[..|rows|] == rows;
    DuplicatedUpTo(rows, |rows|)
  }

  function SumCents(ms: seq<Extraction>): int {
    if |ms| == 0 then 0 else SumCents(ms[..|ms| - 1]) + Cents(ms[|ms| - 1].total)
  }

  /** The document numbers of a group, each as text. */
  function DocNumbers(ms: seq<Extraction>): (ds: seq<string>)
    ensures |ds| == |ms|
    ensures forall k :: 0 <= k < |ds| ==> ds[k] == Show(ms[k].documento)
  {
    seq(|ms|, k requires 0 <= k < |ms| => Show(ms[k].documento))
  }

  /** The dictionary entry of a duplicated order: the first member's fields,
      its Total replaced by the group's sum, and `documentos_sumados`. */
  datatype Aggregated = Aggregated(template: Extraction, documentos: string)

  function Aggregate(rows: seq<Extraction>, p: string): (a: Aggregated)
    requires CountOrder(rows, p) >= 1
    ensures a.template.pedido == p
    ensures a.template.total == Amount(OrderTotal(rows, p))
    ensures forall i :: 0 <= i < |rows| && rows[i].pedido == p && FirstOfOrder(rows, i) ==>
              a.template.(total := rows[i].total) == rows[i]
  {
    var ms := Members(rows, p);
    MembersTotal(rows, p);
    FirstRows(rows, p);
    Aggregated(ms[0].(total := Amount(SumCents(ms))), Join(DocNumbers(ms), ", "))
  }

  /** `process_duplicates`: the aggregated record of every duplicated order,
      and the duplicated order numbers. */
  function ProcessDuplicates(rows: seq<Extraction>): (r: (map<string, Aggregated>, seq<string>))
    ensures forall q :: q in r.0 <==> CountOrder(rows, q) >= 2
    ensures forall q :: q in r.0 <==> q in r.1
    ensures forall i, j :: 0 <= i < j < |r.1| ==> r.1[i] != r.1[j]
    ensures forall q :: q in r.0 ==> r.0[q].template.pedido == q
    ensures forall q :: q in r.0 ==> r.0[q].template.total == Amount(OrderTotal(rows, q))
    ensures forall i :: 0 <= i < |rows| && rows[i].pedido in r.0 && FirstOfOrder(rows, i) ==>
              r.0[rows[i].pedido].template.(total := rows[i].total) == rows[i]
  {
    var dups := DuplicatedOrders(rows);
    (map q | q in dups :: Aggregate(rows, q), dups)
  }

  // ---------------------------------------------------------------------------
  // What an aggregated record holds
  // ---------------------------------------------------------------------------

  /** Independent definition: the sum of the totals of all rows of order `p`. */
  function OrderTotal(rows: seq<Extraction>, p: string): int {
    if |rows| == 0 then 0
    else OrderTotal(rows[..|rows| - 1], p) + (if rows[|rows| - 1].pedido == p then Cents(rows[|rows| - 1].total) else 0)
  }

  lemma {:induction false} SumCentsAppend(ms: seq<Extraction>, x: Extraction)
    ensures SumCents(ms + [x]) == SumCents(ms) + Cents(x.total)
  {
    assert (ms + [x])[..|ms|] == ms;
  }

  lemma {:induction false} MembersTotal(rows: seq<Extraction>, p: string)
    ensures SumCents(Members(rows, p)) == OrderTotal(rows, p)
  {
    if |rows| > 0 {
      MembersTotal(rows[..|rows| - 1], p);
      if rows[|rows| - 1].pedido == p {
        SumCentsAppend(Members(rows[..|rows| - 1], p), rows[|rows| - 1]);
      }
    }
  }

  lemma {:induction false} NoMembers(rows: seq<Extraction>, p: string)
    requires forall j :: 0 <= j < |rows| ==> rows[j].pedido != p
    ensures CountOrder(rows, p) == 0
  {
    if |rows| > 0 {
      var pre := rows[..|rows| - 1];
      assert forall j :: 0 <= j < |pre| ==> pre[j] == rows[j];
      NoMembers(pre, p);
    }
  }

  /** A row of order `p` makes `p` occur at least once. */
  lemma {:induction false} CountOrderOne(rows: seq<Extraction>, p: string, i: nat)
    requires i < |rows| && rows[i].pedido == p
    ensures CountOrder(rows, p) >= 1
  {
    var pre := rows[..|rows| - 1];
    if i < |pre| {
      assert pre[i] == rows[i];
      CountOrderOne(pre, p, i);
    }
  }

  /** Two rows of order `p` make `p` a repeated order. */
  lemma {:induction false} CountOrderTwo(rows: seq<Extraction>, p: string, i: nat, j: nat)
    requires i < j < |rows| && rows[i].pedido == p && rows[j].pedido == p
    ensures CountOrder(rows, p) >= 2
  {
    var pre := rows[..|rows| - 1];
    assert pre[i] == rows[i];
    if j < |pre| {
      assert pre[j] == rows[j];
      CountOrderTwo(pre, p, i, j);
    } else {
      CountOrderOne(pre, p, i);
    }
  }

  /** The first member of an order is its first row in the sheet. */
  lemma {:induction false} FirstMember(rows: seq<Extraction>, i: nat)
    requires i < |rows| && FirstOfOrder(rows, i)
    ensures |Members(rows, rows[i].pedido)| > 0
    ensures Members(rows, rows[i].pedido)[0] == rows[i]
  {
    var p := rows[i].pedido;
    var pre := rows[..|rows| - 1];
    if i == |rows| - 1 {
      assert forall j :: 0 <= j < |pre| ==> pre[j] == rows[j];
      NoMembers(pre, p);
      assert Members(rows, p) == Members(pre, p) + [rows[i]];
    } else {
      assert pre[i] == rows[i];
      assert forall j :: 0 <= j < i ==> pre[j] == rows[j];
      FirstMember(pre, i);
    }
  }

  /** Lemma form of the template fact for every first row of order `p`. */
  lemma FirstRows(rows: seq<Extraction>, p: string)
    ensures forall i :: 0 <= i < |rows| && rows[i].pedido == p && FirstOfOrder(rows, i) ==>
              |Members(rows, p)| > 0 && Members(rows, p)[0] == rows[i]
  {
    forall i | 0 <= i < |rows| && rows[i].pedido == p && FirstOfOrder(rows, i)
      ensures |Members(rows, p)| > 0 && Members(rows, p)[0] == rows[i]
    {
      FirstMember(rows, i);
    }
  }

  /** `", ".join` read back: splitting the audit trail on ',' and stripping
      gives one piece per member, its document number, in sheet order
      (document numbers held as numbers, dates or NaN print without ','). */
  lemma {:induction false} AuditTrail(rows: seq<Extraction>, q: string)
    requires CountOrder(rows, q) >= 2
    requires forall j :: 0 <= j < |rows| && rows[j].pedido == q ==> !rows[j].documento.Text?
    ensures var pieces := SplitOn(ProcessDuplicates(rows).0[q].documentos, ',');
            |pieces| == CountOrder(rows, q) &&
            forall k :: 0 <= k < |pieces| ==> Strip(pieces[k]) == Show(Members(rows, q)[k].documento)
  {
    EntryOf(rows, q);
    var ms := Members(rows, q);
    var ds := DocNumbers(ms);
    NumericMembers(rows, q);
    UnpaddedDocs(ms);
    SplitCommaSpace(ds);
    var doc := ProcessDuplicates(rows).0[q].documentos;
    assert doc == Join(ds, ", ");
    var pieces := SplitOn(doc, ',');
    forall k | 0 <= k < |pieces| ensures Strip(pieces[k]) == Show(ms[k].documento) {
      assert Strip(pieces[k]) == ds[k];
    }
  }

  lemma EntryOf(rows: seq<Extraction>, q: string)
    requires q in ProcessDuplicates(rows).0
    ensures CountOrder(rows, q) >= 2
    ensures ProcessDuplicates(rows).0[q] == Aggregate(rows, q)
  {
  }

  lemma UnpaddedDocs(ms: seq<Extraction>)
    requires forall k :: 0 <= k < |ms| ==> !ms[k].documento.Text?
    ensures forall k :: 0 <= k < |ms| ==> Unpadded(DocNumbers(ms)[k])
  {
    forall k | 0 <= k < |ms| ensures Unpadded(DocNumbers(ms)[k]) {
      var v := ms[k].documento;
      assert DocNumbers(ms)[k] == Show(v);
    }
  }

  /** When every row of order `p` holds its document number as a non-text
      value, so does every member. */
  lemma {:induction false} NumericMembers(rows: seq<Extraction>, p: string)
    requires forall j :: 0 <= j < |rows| && rows[j].pedido == p ==> !rows[j].documento.Text?
    ensures forall k :: 0 <= k < |Members(rows, p)| ==> !Members(rows, p)[k].documento.Text?
  {
    if |rows| > 0 {
      var pre := rows[..|rows| - 1];
      assert forall j :: 0 <= j < |pre| ==> pre[j] == rows[j];
      NumericMembers(pre, p);
    }
  }

  /** Each string with a space put in front. */
  function Lead(xs: seq<string>): (ys: seq<string>)
    ensures |ys| == |xs|
    ensures forall k :: 0 <= k < |xs| ==> ys[k] == " " + xs[k]
  {
    seq(|xs|, k requires 0 <= k < |xs| => " " + xs[k])
  }

  /** Putting a space in front of the first string puts it in front of the join. */
  lemma JoinLeadingSpace(a: string, rest: seq<string>, sep: string)
    ensures Join([" " + a] + rest, sep) == " " + Join([a] + rest, sep)
  {
    if |rest| == 0 {
      assert [" " + a] + rest == [" " + a];
      assert [a] + rest == [a];
    } else {
      JoinCons(" " + a, rest, sep);
      JoinCons(a, rest, sep);
    }
  }

  /** `", ".join(ds)` is `",".join` of the same strings with a space put in
      front of every one after the first. */
  lemma {:induction false} JoinCommaSpace(ds: seq<string>)
    requires |ds| >= 1
    ensures Join(ds, ", ") == Join([ds[0]] + Lead(ds[1..]), [','])
  {
    if |ds| > 1 {
      var rest := ds[1..];
      JoinCommaSpace(rest);
      assert Lead(rest) == [" " + rest[0]] + Lead(rest[1..]);
      JoinLeadingSpace(rest[0], Lead(rest[1..]), [',']);
      JoinCons(ds[0], Lead(rest), [',']);
      assert ds == [ds[0]] + rest;
      JoinCons(ds[0], rest, ", ");
    } else {
      assert ds == [ds[0]];
      assert Lead(ds[1..]) == [];
      assert [ds[0]] + Lead(ds[1..]) == [ds[0]];
    }
  }

  predicate Unpadded(d: string) {
    ',' !in d && d != [] && !IsSpace(d[0]) && !IsSpace(d[|d| - 1])
  }

  /** The pieces `",".join` sees, each free of ',' and stripping back to the
      original string. */
  lemma SpacedPieces(ds: seq<string>)
    requires |ds| >= 1
    requires forall k :: 0 <= k < |ds| ==> Unpadded(ds[k])
    ensures forall k :: 0 <= k < |ds| ==> ',' !in ([ds[0]] + Lead(ds[1..]))[k]
    ensures forall k :: 0 <= k < |ds| ==> Strip(([ds[0]] + Lead(ds[1..]))[k]) == ds[k]
  {
    var ps := [ds[0]] + Lead(ds[1..]);
    forall k | 0 <= k < |ds| ensures ',' !in ps[k] && Strip(ps[k]) == ds[k] {
      if k == 0 {
        StripOfPadded("", ds[0], "");
        assert "" + ds[0] + "" == ds[0];
      } else {
        assert ps[k] == Lead(ds[1..])[k - 1] == " " + ds[k];
        StripOfPadded(" ", ds[k], "");
        assert " " + ds[k] + "" == ps[k];
      }
    }
  }

  /** Joining non-empty, comma-free, unpadded strings with ", " and splitting
      the result on ',' gives them back once each piece is stripped. */
  lemma SplitCommaSpace(ds: seq<string>)
    requires |ds| >= 1
    requires forall k :: 0 <= k < |ds| ==> Unpadded(ds[k])
    ensures |SplitOn(Join(ds, ", "), ',')| == |ds|
    ensures forall k :: 0 <= k < |ds| ==> Strip(SplitOn(Join(ds, ", "), ',')[k]) == ds[k]
  {
    var ps := [ds[0]] + Lead(ds[1..]);
    JoinCommaSpace(ds);
    SpacedPieces(ds);
    SplitOnJoin(ps, ',');
  }
}

=== FILE: extract.dfy ===
/** `SearsExtractor.extract_data_from_pdf` and `process_all_pdfs`: the text of
    a receipt PDF's first page becomes one record per data line, each carrying
    the page's cheque and supplier header. */
module Extract {
  import opened Wrappers
  import opened Strings

  /** One extracted receipt line, all nine fields still text. */
  datatype Record = Record(
    pedido: string,
    fechaPedido: string,
    fechaVencimiento: string,
    documento: string,
    tipo: string,
    total: string,
    descripcion: string,
    cheque: string,
    proveedor: string)

  // ---------------------------------------------------------------------------
  // Document types
  // ---------------------------------------------------------------------------

  const Delivered := "PEDIDO ENTREGADO"
  const Other := "OTRO"

  /** The extractor's `doc_types` table. */
  const DocTypes: map<string, string> := map[
    "NP" := Delivered,
    "NT" := Delivered,
    "ND" := "DEVOLUCIÓN DE PEDIDO",
    "DR" := "RETENCIÓN ISR E IVA",
    "DV" := "DESCUENTO SERVICIO DE REPARTO"]

  /** The description of a document-type code; an unknown code reads "OTRO". */
  function Describe(code: string): (d: string)
    ensures d == Other <==> code !in {"NP", "NT", "ND", "DR", "DV"}
    ensures code == "NP" || code == "NT" ==> d == Delivered
    ensures code == "ND" ==> d == "DEVOLUCIÓN DE PEDIDO"
    ensures code == "DR" ==> d == "RETENCIÓN ISR E IVA"
    ensures code == "DV" ==> d == "DESCUENTO SERVICIO DE REPARTO"
  {
    if code in DocTypes then DocTypes[code] else Other
  }

  // ---------------------------------------------------------------------------
  // Header
  // ---------------------------------------------------------------------------

  datatype Header = Header(cheque: string, proveedor: string)

  predicate IsChequeLine(line: string) {
    Contains(line, "Cheque")
  }

  /** The `elif`: a line that mentions "Cheque" is never a supplier line. */
  predicate IsProveedorLine(line: string) {
    !Contains(line, "Cheque") && Contains(line, "Proveedor")
  }

  /** The value of a header line: the text between its first and second colon,
      stripped of whitespace; the empty string when the line has no colon. */
  function HeaderValue(line: string): (v: string)
    ensures ':' !in line ==> v == ""
    ensures v == [] || (!IsSpace(v[0]) && !IsSpace(v[|v| - 1]))
  {
    if ':' in line then Strip(SplitOn(line, ':')[1]) else ""
  }

  /** The header value is the stripped text between the first and the second
      colon (or the end of the line). */
  lemma HeaderValueOfField(pre: string, seg: string, rest: string)
    requires ':' !in pre && ':' !in seg
    requires rest == [] || rest[0] == ':'
    ensures HeaderValue(pre + ":" + seg + rest) == Strip(seg)
  {
    SecondPiece(pre, ':', seg, rest);
    assert pre + ":" + seg + rest == pre + [':'] + seg + rest;
  }

  /** The header loop over all lines; `LastCheque` and `LastProveedor` state
      what it leaves in each field. */
  function ScanHeader(lines: seq<string>): Header {
    if |lines| == 0 then Header("", "")
    else
      var h := ScanHeader(lines[..|lines| - 1]);
      var line := lines[|lines| - 1];
      if IsChequeLine(line) then h.(cheque := HeaderValue(line))
      else if IsProveedorLine(line) then h.(proveedor := HeaderValue(line))
      else h
  }

  /** Without any "Cheque" line the field stays "". */
  lemma {:induction false} NoCheque(lines: seq<string>)
    requires forall i :: 0 <= i < |lines| ==> !IsChequeLine(lines[i])
    ensures ScanHeader(lines).cheque == ""
  {
    if |lines| > 0 {
      var prefix := lines[..|lines| - 1];
      assert !IsChequeLine(lines[|lines| - 1]);
      forall i | 0 <= i < |prefix| ensures !IsChequeLine(prefix[i]) {
        assert prefix[i] == lines[i];
      }
      NoCheque(prefix);
    }
  }

  /** A later "Cheque" line overwrites an earlier one: the field holds the
      value of the LAST such line. */
  lemma {:induction false} LastCheque(lines: seq<string>, i: nat)
    requires i < |lines| && IsChequeLine(lines[i])
    requires forall j :: i < j < |lines| ==> !IsChequeLine(lines[j])
    ensures ScanHeader(lines).cheque == HeaderValue(lines[i])
  {
    var last := |lines| - 1;
    if i < last {
      var prefix := lines[..last];
      assert !IsChequeLine(lines[last]);
      forall j | i < j < |prefix| ensures !IsChequeLine(prefix[j]) {
        assert prefix[j] == lines[j];
      }
      assert prefix[i] == lines[i];
      LastCheque(prefix, i);
    }
  }

  /** Without any "Proveedor" line (one not mentioning "Cheque") the field
      stays "". */
  lemma {:induction false} NoProveedor(lines: seq<string>)
    requires forall i :: 0 <= i < |lines| ==> !IsProveedorLine(lines[i])
    ensures ScanHeader(lines).proveedor == ""
  {
    if |lines| > 0 {
      var prefix := lines[..|lines| - 1];
      assert !IsProveedorLine(lines[|lines| - 1]);
      forall i | 0 <= i < |prefix| ensures !IsProveedorLine(prefix[i]) {
        assert prefix[i] == lines[i];
      }
      NoProveedor(prefix);
    }
  }

  /** Likewise the supplier field holds the value of the last "Proveedor"
      line. */
  lemma {:induction false} LastProveedor(lines: seq<string>, i: nat)
    requires i < |lines| && IsProveedorLine(lines[i])
    requires forall j :: i < j < |lines| ==> !IsProveedorLine(lines[j])
    ensures ScanHeader(lines).proveedor == HeaderValue(lines[i])
  {
    var last := |lines| - 1;
    if i < last {
      var prefix := lines[..last];
      assert !IsProveedorLine(lines[last]);
      forall j | i < j < |prefix| ensures !IsProveedorLine(prefix[j]) {
        assert prefix[j] == lines[j];
      }
      assert prefix[i] == lines[i];
      LastProveedor(prefix, i);
    }
  }

  // ---------------------------------------------------------------------------
  // Data lines
  // ---------------------------------------------------------------------------

  predicate IsPedido(p: string) {
    |p| == 8 && AllDigits(p)
  }

  /** A data line: its first whitespace-separated token is eight decimal
      digits. */
  predicate IsDataLine(line: string) {
    var parts := Words(line);
    |parts| > 0 && IsPedido(parts[0])
  }

  lemma FirstWord(line: string)
    ensures |Words(line)| > 0 <==> TrimStart(line) != []
    ensures |Words(line)| > 0 ==> Words(line)[0] == Word(TrimStart(line))
  {
  }

  /** A data line, read character by character: after the leading whitespace
      come exactly eight digits, then whitespace or the end of the line. */
  lemma DataLineShape(line: string)
    ensures IsDataLine(line) <==>
      (var t := TrimStart(line);
       |t| >= 8 && AllDigits(t[..8]) && (|t| == 8 || IsSpace(t[8])))
  {
    var t := TrimStart(line);
    FirstWord(line);
    if |t| >= 8 && AllDigits(t[..8]) && (|t| == 8 || IsSpace(t[8])) {
      WordOfToken(t[..8], t[8..]);
      assert t == t[..8] + t[8..];
    }
  }

  /** The lines the first loop keeps, in order. */
  function DataLines(lines: seq<string>): (d: seq<string>)
    ensures |d| <= |lines|
    ensures forall k :: 0 <= k < |d| ==> IsDataLine(d[k])
    ensures forall x :: multiset(d)[x] == (if IsDataLine(x) then multiset(lines)[x] else 0)
    ensures |lines| == 1 ==> d == (if IsDataLine(lines[0]) then lines else [])
  {
    if |lines| == 0 then []
    else
      var d := DataLines(lines[..|lines| - 1]);
      assert lines == lines[..|lines| - 1] + [lines[|lines| - 1]];
      if IsDataLine(lines[|lines| - 1]) then d + [lines[|lines| - 1]] else d
  }

  /** The filter works piece by piece, so (with the one-line case) the data
      lines come out in the order of the page. */
  lemma {:induction false} DataLinesAppend(a: seq<string>, b: seq<string>)
    ensures DataLines(a + b) == DataLines(a) + DataLines(b)
  {
    if b == [] {
      assert a + b == a;
    } else {
      var b' := b[..|b| - 1];
      assert (a + b)[..|a + b| - 1] == a + b';
      assert (a + b)[|a + b| - 1] == b[|b| - 1];
      DataLinesAppend(a, b');
    }
  }

  /** The record built from the tokens of a line with at least six of them. */
  function ParseParts(parts: seq<string>, h: Header): (r: Record)
    requires |parts| >= 6
    ensures r.pedido == parts[0] && r.fechaPedido == parts[1] && r.fechaVencimiento == parts[2]
    ensures r.documento == parts[3] && r.tipo == parts[4]
    ensures r.total == DropChar(DropChar(parts[5], '$'), ',')
    ensures '$' !in r.total && ',' !in r.total
    ensures multiset(r.total) == multiset(parts[5])['$' := 0][',' := 0]
    ensures r.descripcion == Describe(r.tipo)
    ensures r.cheque == h.cheque && r.proveedor == h.proveedor
  {
    var total := DropChar(DropChar(parts[5], '$'), ',');
    assert multiset(total)['$'] == 0;
    assert '$' !in multiset(total);
    Record(parts[0], parts[1], parts[2], parts[3], parts[4], total,
           Describe(parts[4]), h.cheque, h.proveedor)
  }

  predicate HasRecord(line: string) {
    |Words(line)| >= 6
  }

  /** What every extracted record satisfies: the page's header values, a
      total without "$" or ",", and the description of its type. */
  predicate Sound(rec: Record, h: Header) {
    rec.cheque == h.cheque && rec.proveedor == h.proveedor
    && '$' !in rec.total && ',' !in rec.total
    && rec.descripcion == Describe(rec.tipo)
  }

  /** The second loop: one record per data line with at least six tokens. */
  function ParseDataLines(data: seq<string>, h: Header): (r: seq<Record>)
    ensures |r| <= |data|
    ensures forall k :: 0 <= k < |r| ==> Sound(r[k], h)
    ensures |data| == 1 ==> r == (if HasRecord(data[0]) then [ParseParts(Words(data[0]), h)] else [])
  {
    if |data| == 0 then []
    else
      var r := ParseDataLines(data[..|data| - 1], h);
      var line := data[|data| - 1];
      if HasRecord(line) then r + [ParseParts(Words(line), h)] else r
  }

  /** Parsing works line by line: with the one-line case, every line with six
      or more tokens gives its record, in line order, and no other record
      appears. */
  lemma {:induction false} ParseDataLinesAppend(a: seq<string>, b: seq<string>, h: Header)
    ensures ParseDataLines(a + b, h) == ParseDataLines(a, h) + ParseDataLines(b, h)
  {
    if b == [] {
      assert a + b == a;
    } else {
      var b' := b[..|b| - 1];
      assert (a + b)[..|a + b| - 1] == a + b';
      assert (a + b)[|a + b| - 1] == b[|b| - 1];
      ParseDataLinesAppend(a, b', h);
    }
  }

  /** Records parsed from data lines carry 8-digit order numbers. */
  lemma {:induction false} DataRecordsHavePedidos(data: seq<string>, h: Header)
    requires forall k :: 0 <= k < |data| ==> IsDataLine(data[k])
    ensures forall k :: 0 <= k < |ParseDataLines(data, h)| ==> IsPedido(ParseDataLines(data, h)[k].pedido)
  {
    if |data| > 0 {
      var prefix := data[..|data| - 1];
      forall k | 0 <= k < |prefix| ensures IsDataLine(prefix[k]) {
        assert prefix[k] == data[k];
      }
      DataRecordsHavePedidos(prefix, h);
      assert IsDataLine(data[|data| - 1]);
    }
  }

  /** Both loops of `extract_data_from_pdf` over one page's lines: one record
      per data line of six or more tokens, in line order, each carrying the
      page's cheque and supplier. */
  function ExtractLines(lines: seq<string>): (r: seq<Record>)
    ensures |r| <= |lines|
    ensures forall k :: 0 <= k < |r| ==> Sound(r[k], ScanHeader(lines))
    ensures forall k :: 0 <= k < |r| ==> IsPedido(r[k].pedido)
    ensures r == RecordsOf(lines, ScanHeader(lines))
  {
    DataRecordsHavePedidos(DataLines(lines), ScanHeader(lines));
    TwoPassesAreOne(lines, ScanHeader(lines));
    ParseDataLines(DataLines(lines), ScanHeader(lines))
  }

  /** An independent one-pass definition: each line that is a data line with
      at least six tokens gives the record of its tokens, in line order. */
  function RecordsOf(lines: seq<string>, h: Header): seq<Record> {
    if |lines| == 0 then []
    else
      var r := RecordsOf(lines[..|lines| - 1], h);
      var line := lines[|lines| - 1];
      if IsDataLine(line) && HasRecord(line) then r + [ParseParts(Words(line), h)] else r
  }

  /** How many lines yield a record. */
  function RecordLines(lines: seq<string>): (n: nat)
    ensures n <= |lines|
  {
    if |lines| == 0 then 0
    else RecordLines(lines[..|lines| - 1])
         + (if IsDataLine(lines[|lines| - 1]) && HasRecord(lines[|lines| - 1]) then 1 else 0)
  }

  /** Filtering the data lines first and parsing them afterwards gives exactly
      the one-pass records. */
  lemma {:induction false} TwoPassesAreOne(lines: seq<string>, h: Header)
    ensures ParseDataLines(DataLines(lines), h) == RecordsOf(lines, h)
  {
    if |lines| > 0 {
      var prefix := lines[..|lines| - 1];
      var line := lines[|lines| - 1];
      TwoPassesAreOne(prefix, h);
      var d := DataLines(prefix);
      if IsDataLine(line) {
        assert DataLines(lines) == d + [line];
        assert (d + [line])[..|d|] == d;
      }
    }
  }

  /** Exactly one record per data line with six or more tokens. */
  lemma {:induction false} RecordCount(lines: seq<string>, h: Header)
    ensures |RecordsOf(lines, h)| == RecordLines(lines)
  {
    if |lines| > 0 {
      RecordCount(lines[..|lines| - 1], h);
    }
  }

  /** A page line written as space-separated tokens, the first an order number
      and at least six in all, becomes the record of those tokens by position:
      the first five verbatim, the amount without '$' and ','. */
  lemma TokensToRecord(tokens: seq<string>, h: Header)
    requires forall i :: 0 <= i < |tokens| ==> IsToken(tokens[i])
    requires |tokens| >= 6 && IsPedido(tokens[0])
    ensures RecordsOf([Join(tokens, " ")], h) ==
      [Record(tokens[0], tokens[1], tokens[2], tokens[3], tokens[4],
              DropChar(DropChar(tokens[5], '$'), ','), Describe(tokens[4]),
              h.cheque, h.proveedor)]
  {
    WordsOfJoin(tokens);
    assert [Join(tokens, " ")][..0] == [];
  }

  /** A data line with fewer than six tokens yields no record. */
  lemma ShortLineNoRecord(tokens: seq<string>, h: Header)
    requires forall i :: 0 <= i < |tokens| ==> IsToken(tokens[i])
    requires 0 < |tokens| < 6
    ensures RecordsOf([Join(tokens, " ")], h) == []
  {
    WordsOfJoin(tokens);
    assert [Join(tokens, " ")][..0] == [];
  }

  // ---------------------------------------------------------------------------
  // PDFs
  // ---------------------------------------------------------------------------

  /** One PDF: the text of each page (`None` when a page has no text layer).
      Only the first page is read; a PDF without pages or whose first page has
      no text raises inside the `try` and contributes nothing. */
  function ExtractPdf(pages: seq<Option<string>>): (r: seq<Record>)
    ensures |pages| == 0 || pages[0].None? ==> r == []
    ensures |pages| > 0 && pages[0].Some? ==> |r| <= |SplitOn(pages[0].value, '\n')|
    ensures |pages| > 0 && pages[0].Some? ==>
              var lines := SplitOn(pages[0].value, '\n');
              r == RecordsOf(lines, ScanHeader(lines))
  {
    if |pages| == 0 || pages[0].None? then []
    else ExtractLines(SplitOn(pages[0].value, '\n'))
  }

  /** Pages after the first never influence the result. */
  lemma OnlyFirstPage(first: Option<string>, rest: seq<Option<string>>)
    ensures ExtractPdf([first] + rest) == ExtractPdf([first])
  {
    assert ([first] + rest)[0] == first;
  }

  predicate IsPdfName(name: string) {
    EndsWith(name, ".pdf")
  }

  datatype InputFile = InputFile(name: string, pages: seq<Option<string>>)

  /** `process_all_pdfs`: the files of the input directory in listing order;
      those whose name ends in ".pdf" append their records. */
  function ProcessAll(files: seq<InputFile>): (r: seq<Record>)
    ensures (forall i :: 0 <= i < |files| ==> !IsPdfName(files[i].name)) ==> r == []
    ensures forall k :: 0 <= k < |r| ==> IsPedido(r[k].pedido)
    ensures |files| == 1 ==> r == (if IsPdfName(files[0].name) then ExtractPdf(files[0].pages) else [])
  {
    if |files| == 0 then []
    else
      var prefix := files[..|files| - 1];
      var r := ProcessAll(prefix);
      var f := files[|files| - 1];
      assert forall i :: 0 <= i < |prefix| ==> prefix[i] == files[i];
      if IsPdfName(f.name) then r + ExtractPdf(f.pages) else r
  }

  /** Processing two listings one after the other equals processing their
      concatenation. */
  lemma {:induction false} ProcessAllAppend(a: seq<InputFile>, b: seq<InputFile>)
    ensures ProcessAll(a + b) == ProcessAll(a) + ProcessAll(b)
    decreases |b|
  {
    if |b| > 0 {
      var b' := b[..|b| - 1];
      ProcessAllAppend(a, b');
      assert (a + b)[..|a + b| - 1] == a + b';
    } else {
      assert a + b == a;
    }
  }
}

=== FILE: ledger.dfy ===
/** The master ledger ("Concentrado Sears") as both scripts see it: an openpyxl
    worksheet whose cells carry a value and a style, addressed by header name or
    by column letters, and the pandas view of its key column used for matching. */
module Ledger {
  import opened Wrappers
  import opened Strings
  import opened Values

  /** A cell's presentation (openpyxl `_style`): the number format, and every
      other attribute (font, fill, border, alignment) as one opaque identifier. */
  datatype Style = Style(numberFormat: string, presentation: nat)

  const DefaultStyle := Style("General", 0)

  /** The number format `merge_data` gives every date it writes. */
  const DateFormat := "dd/mm/yyyy"

  datatype Cell = Cell(value: Value, style: Style)

  /** What openpyxl returns for a cell that was never written. */
  const EmptyCell := Cell(Missing, DefaultStyle)

  /** The active worksheet. `header` is row 1 (`header[j]` names column j + 1);
      `rows[i]` is worksheet row i + 2 and maps the 1-based numbers of the
      columns that hold a cell to that cell. */
  datatype Sheet = Sheet(header: seq<string>, rows: seq<map<nat, Cell>>)

  function CellAt(s: Sheet, r: nat, c: nat): Cell {
    if r < |s.rows| && c in s.rows[r] then s.rows[r][c] else EmptyCell
  }

  /** `cell.value = v`: the value changes, the style stays. */
  function SetValue(s: Sheet, r: nat, c: nat, v: Value): (t: Sheet)
    requires r < |s.rows|
    ensures t.header == s.header && |t.rows| == |s.rows|
    ensures CellAt(t, r, c) == Cell(v, CellAt(s, r, c).style)
    ensures t.rows == s.rows[r := t.rows[r]]
    ensures t.rows[r].Keys == s.rows[r].Keys + {c}
    ensures forall c': nat :: c' != c ==> CellAt(t, r, c') == CellAt(s, r, c')
  {
    var row: map<nat, Cell> := s.rows[r][c := Cell(v, CellAt(s, r, c).style)];
    s.(rows := s.rows[r := row])
  }

  /** `cell.value = v; cell.number_format = "dd/mm/yyyy"`. */
  function SetDate(s: Sheet, r: nat, c: nat, v: Value): (t: Sheet)
    requires r < |s.rows|
    ensures t.header == s.header && |t.rows| == |s.rows|
    ensures CellAt(t, r, c) == Cell(v, CellAt(s, r, c).style.(numberFormat := DateFormat))
    ensures t.rows == s.rows[r := t.rows[r]]
    ensures t.rows[r].Keys == s.rows[r].Keys + {c}
    ensures forall c': nat :: c' != c ==> CellAt(t, r, c') == CellAt(s, r, c')
  {
    var prev := CellAt(s, r, c);
    var row: map<nat, Cell> := s.rows[r][c := Cell(v, prev.style.(numberFormat := DateFormat))];
    s.(rows := s.rows[r := row])
  }

  // ---------------------------------------------------------------------------
  // Finding columns
  // ---------------------------------------------------------------------------

  /** The column `merge_data` writes for header `name`. Its mapping from
      header text to column number is built left to right, so a later column
      of the same name overwrites an earlier one: the LAST wins. */
  function ColumnByName(header: seq<string>, name: string): (c: Option<nat>)
    ensures c.None? <==> name !in header
    ensures c.Some? ==> 1 <= c.value <= |header| && header[c.value - 1] == name
    ensures c.Some? ==> forall j :: c.value <= j < |header| ==> header[j] != name
  {
    if |header| == 0 then None
    else if header[|header| - 1] == name then Some(|header|)
    else
      var c := ColumnByName(header[..|header| - 1], name);
      assert header == header[..|header| - 1] + [header[|header| - 1]];
      c
  }

  /** The column pandas reads as `df[name]`: the FIRST one with that name
      (pandas renames later duplicates "name.1", "name.2", ...). */
  function FrameColumn(header: seq<string>, name: string): (c: Option<nat>)
    ensures c.None? <==> name !in header
    ensures c.Some? ==> 1 <= c.value <= |header| && header[c.value - 1] == name
    ensures c.Some? ==> forall j :: 0 <= j < c.value - 1 ==> header[j] != name
  {
    if |header| == 0 then None
    else if header[0] == name then Some(1)
    else
      match FrameColumn(header[1..], name)
      case None => None
      case Some(c) => Some(c + 1)
  }

  predicate DistinctNames(header: seq<string>) {
    forall i, j :: 0 <= i < j < |header| ==> header[i] != header[j]
  }

  /** With distinct header names the openpyxl mapping and the pandas column agree. */
  lemma LookupsAgree(header: seq<string>, name: string)
    requires DistinctNames(header)
    ensures ColumnByName(header, name) == FrameColumn(header, name)
  {
  }

  /** The header label of the ledger's key column. */
  const KeyHeader := "ORDEN SEARS "

  /** The ledger's key column read as text: every data row's key as
      text (a blank cell reads as NaN and prints "nan"); a ledger without that
      column raises `KeyError`. */
  function KeyColumn(s: Sheet): (keys: Result<seq<string>>)
    ensures keys.Success? <==> KeyHeader in s.header
    ensures keys.Success? ==> |keys.value| == |s.rows|
    ensures keys.Success? ==>
              forall i :: 0 <= i < |s.rows| ==>
                keys.value[i] == Show(CellAt(s, i, FrameColumn(s.header, KeyHeader).value).value)
  {
    match FrameColumn(s.header, KeyHeader)
    case None => Failure("KeyError: 'ORDEN SEARS '")
    case Some(c) => Success(seq(|s.rows|, i requires 0 <= i < |s.rows| => Show(CellAt(s, i, c).value)))
  }

  /** With a single key column, a value assigned to a row's key cell (the
      column the header mapping names) is what the key column reads for that
      row, as text. */
  lemma KeyReadsBack(s: Sheet, i: nat, v: Value)
    requires i < |s.rows| && DistinctNames(s.header) && KeyHeader in s.header
    ensures var t := SetValue(s, i, ColumnByName(s.header, KeyHeader).value, v);
            KeyColumn(t).Success? && KeyColumn(t).value[i] == Show(v)
  {
    LookupsAgree(s.header, KeyHeader);
  }

  /** The first row whose key equals `key`, or nothing when no row does. */
  function FirstMatch(keys: seq<string>, key: string): (m: Option<nat>)
    ensures m.None? <==> key !in keys
    ensures m.Some? ==> m.value < |keys| && keys[m.value] == key
    ensures m.Some? ==> forall j :: 0 <= j < m.value ==> keys[j] != key
  {
    if |keys| == 0 then None
    else if keys[0] == key then Some(0)
    else
      match FirstMatch(keys[1..], key)
      case None => None
      case Some(i) => Some(i + 1)
  }

  // ---------------------------------------------------------------------------
  // Column letters
  // ---------------------------------------------------------------------------

  predicate IsColumnName(s: string) {
    |s| > 0 && forall i :: 0 <= i < |s| ==> 'A' <= s[i] <= 'Z'
  }

  /** openpyxl's `column_index_from_string`: letters read as bijective base 26,
      "A" = 1, "Z" = 26, "AA" = 27. */
  function ColumnIndex(s: string): (n: nat)
    requires IsColumnName(s)
    ensures n >= 1
  {
    var last := s[|s| - 1] as int - 64;
    if |s| == 1 then last else 26 * ColumnIndex(s[..|s| - 1]) + last
  }

  /** openpyxl's `get_column_letter`. */
  function ColumnLetters(n: nat): (s: string)
    requires n >= 1
    ensures IsColumnName(s)
  {
    var last := (65 + (n - 1) % 26) as char;
    if n <= 26 then [last] else ColumnLetters((n - 1) / 26) + [last]
  }

  /** `column_index_from_string(get_column_letter(n)) == n`. */
  lemma {:induction false} IndexOfLetters(n: nat)
    requires n >= 1
    ensures ColumnIndex(ColumnLetters(n)) == n
  {
    var s := ColumnLetters(n);
    if n > 26 {
      assert s[..|s| - 1] == ColumnLetters((n - 1) / 26);
      IndexOfLetters((n - 1) / 26);
    }
  }

  /** `get_column_letter(column_index_from_string(s)) == s`: letters and
      numbers are in one-to-one correspondence. */
  lemma {:induction false} LettersOfIndex(s: string)
    requires IsColumnName(s)
    ensures ColumnLetters(ColumnIndex(s)) == s
  {
    if |s| > 1 {
      var p := s[..|s| - 1];
      LettersOfIndex(p);
      var n := ColumnIndex(s);
      var l := s[|s| - 1] as int - 64;
      assert n == 26 * ColumnIndex(p) + l;
      assert (n - 1) / 26 == ColumnIndex(p);
      assert (n - 1) % 26 == l - 1;
      assert s == p + [s[|s| - 1]];
    }
  }
}

=== FILE: merge.dfy ===
/** The loop of `SearsMerger.merge_data`: every row of the extraction sheet is
    looked up in the ledger's key column and, when found, its values are
    written into that ledger row, either as an aggregated duplicate or field by
    field. */
module Merge {
  import opened Wrappers
  import opened Strings
  import opened Values
  import opened Ledger
  import opened Duplicates

  const TotalColumn := "Total"
  const NotesColumn := "OBSERVACIONES "
  const OrderDateColumn := "Fecha_Pedido"
  const DueDateColumn := "Fecha_Vencimiento"
  const DocumentColumn := "Numero_Documento"
  const TypeColumn := "Tipo_Docto"
  const DescriptionColumn := "Descripcion"
  const ChequeColumn := "Cheque"
  const SupplierColumn := "Proveedor"

  /** Every header name the loop may write. */
  const Written: set<string> := {TotalColumn, NotesColumn, OrderDateColumn, DueDateColumn,
    DocumentColumn, TypeColumn, DescriptionColumn, ChequeColumn, SupplierColumn}

  /** Column `c` carries one of the names the loop writes. */
  predicate Writable(header: seq<string>, c: nat) {
    1 <= c <= |header| && header[c - 1] in Written
  }

  /** Between `s` and `t` only cells of row `r` whose column carries one of
      `names` may differ, no cell of that row disappears, and no cell's
      presentation apart from its number format changes. */
  ghost predicate WritesOnly(s: Sheet, t: Sheet, r: nat, names: set<string>) {
    t.header == s.header && |t.rows| == |s.rows| && r < |s.rows|
    && t.rows == s.rows[r := t.rows[r]]
    && s.rows[r].Keys <= t.rows[r].Keys
    && (forall c: nat :: !(1 <= c <= |s.header| && s.header[c - 1] in names) ==> CellAt(t, r, c) == CellAt(s, r, c))
    && (forall c: nat :: CellAt(t, r, c).style.presentation == CellAt(s, r, c).style.presentation)
  }

  lemma WritesOnlyTrans(s: Sheet, t: Sheet, u: Sheet, r: nat, names: set<string>, more: set<string>)
    requires WritesOnly(s, t, r, names) && WritesOnly(t, u, r, more)
    ensures WritesOnly(s, u, r, names + more)
  {
  }

  /** One cell assignment `ws.cell(row=r, column=column_mapping[name]).value =
      value`; a date assignment also sets the number format "dd/mm/yyyy". */
  datatype Write = Write(name: string, value: Value, date: bool)

  function Names(ws: seq<Write>): set<string> {
    set k | 0 <= k < |ws| :: ws[k].name
  }

  predicate DistinctNames(ws: seq<Write>) {
    forall i, j :: 0 <= i < j < |ws| ==> ws[i].name != ws[j].name
  }

  function Assign(s: Sheet, r: nat, c: nat, w: Write): Sheet
    requires r < |s.rows|
  {
    if w.date then SetDate(s, r, c, w.value) else SetValue(s, r, c, w.value)
  }

  /** The assignments in order; the first name the header row lacks raises
      `KeyError`. */
  function Apply(s: Sheet, r: nat, ws: seq<Write>): (t: Result<Sheet>)
    requires r < |s.rows|
    ensures t.Success? <==> forall k :: 0 <= k < |ws| ==> ws[k].name in s.header
    ensures t.Success? ==> WritesOnly(s, t.value, r, Names(ws))
    decreases |ws|
  {
    if |ws| == 0 then Success(s)
    else
      var w := ws[0];
      assert Names(ws) == {w.name} + Names(ws[1..]) by {
        assert ws == [w] + ws[1..];
      }
      match ColumnByName(s.header, w.name)
      case None => Failure("KeyError: '" + w.name + "'")
      case Some(c) =>
        var s1 := Assign(s, r, c, w);
        assert WritesOnly(s, s1, r, {w.name});
        Apply(s1, r, ws[1..])
  }

  /** Cell `w` names in row `r` holds `w`'s value (and, for a date, the date
      format). */
  predicate Holds(t: Sheet, r: nat, w: Write)
    requires r < |t.rows| && w.name in t.header
  {
    var c := ColumnByName(t.header, w.name).value;
    c in t.rows[r] && t.rows[r][c].value == w.value
    && (w.date ==> t.rows[r][c].style.numberFormat == DateFormat)
  }

  /** After a successful run of assignments with distinct names, every one of
      them holds. */
  lemma {:induction false} ApplyHolds(s: Sheet, r: nat, ws: seq<Write>)
    requires r < |s.rows| && DistinctNames(ws)
    requires Apply(s, r, ws).Success?
    ensures forall k :: 0 <= k < |ws| ==> Holds(Apply(s, r, ws).value, r, ws[k])
    decreases |ws|
  {
    if |ws| > 0 {
      var w := ws[0];
      var c := ColumnByName(s.header, w.name).value;
      var s1 := Assign(s, r, c, w);
      var t := Apply(s, r, ws).value;
      ApplyHolds(s1, r, ws[1..]);
      assert w.name !in Names(ws[1..]);
      assert CellAt(t, r, c) == CellAt(s1, r, c);
      forall k | 0 <= k < |ws| ensures Holds(t, r, ws[k]) {
        if k > 0 {
          assert ws[k] == ws[1..][k - 1];
        }
      }
    }
  }

  /** Assignments that already hold change nothing. */
  lemma {:induction false} ApplyHeld(t: Sheet, r: nat, ws: seq<Write>)
    requires r < |t.rows|
    requires forall k :: 0 <= k < |ws| ==> ws[k].name in t.header && Holds(t, r, ws[k])
    ensures Apply(t, r, ws) == Success(t)
    decreases |ws|
  {
    if |ws| > 0 {
      var w := ws[0];
      var c := ColumnByName(t.header, w.name).value;
      assert Holds(t, r, w);
      if w.date {
        assert t.rows[r][c := Cell(w.value, CellAt(t, r, c).style.(numberFormat := DateFormat))] == t.rows[r];
      } else {
        assert t.rows[r][c := Cell(w.value, CellAt(t, r, c).style)] == t.rows[r];
      }
      assert t.rows[r := t.rows[r]] == t.rows;
      assert Assign(t, r, c, w) == t;
      ApplyHeld(t, r, ws[1..]);
    }
  }

  /** Running the same assignments twice is running them once. */
  lemma ApplyIdempotent(s: Sheet, r: nat, ws: seq<Write>)
    requires r < |s.rows| && DistinctNames(ws)
    requires Apply(s, r, ws).Success?
    ensures Apply(Apply(s, r, ws).value, r, ws) == Apply(s, r, ws)
  {
    ApplyHolds(s, r, ws);
    ApplyHeld(Apply(s, r, ws).value, r, ws);
  }

  // ---------------------------------------------------------------------------
  // The document number: converted with int() unless it is NaN
  // ---------------------------------------------------------------------------

  /** Python's `int(x)`, after the NaN test: an integer stays, a float is
      truncated toward zero, text must hold an integer between optional
      whitespace; anything else raises. */
  function ToInt(v: Value): (r: Result<Value>)
    ensures r.Success? ==> r.value.Missing? || r.value.Int?
    ensures v.Missing? <==> r == Success(Missing)
    ensures v.Int? ==> r == Success(v)
    ensures v.Amount? ==> r.Success?
    ensures v.Text? ==> (r.Success? <==> ParseInt(Strip(v.s)).Some?)
    ensures v.Text? && r.Success? ==> r.value == Int(ParseInt(Strip(v.s)).value)
    ensures v.Date? ==> r.Failure?
  {
    match v
    case Missing => Success(Missing)
    case Int(n) => Success(Int(n))
    case Amount(c) => Success(Int(if c < 0 then -((-c) / 100) else c / 100))
    case Text(s) =>
      (match ParseInt(Strip(s))
       case Some(n) => Success(Int(n))
       case None => Failure("ValueError: invalid literal for int()"))
    case Date(_, _, _) => Failure("TypeError: int() argument must be a number")
  }

  /** Truncation toward zero: the integer has the amount's sign and lies
      within one unit of it, nearer to zero. */
  lemma ToIntTruncates(c: int)
    ensures ToInt(Amount(c)).Success?
    ensures var n := ToInt(Amount(c)).value.n;
            (c >= 0 ==> 0 <= 100 * n <= c < 100 * n + 100)
            && (c < 0 ==> 100 * n - 100 < c <= 100 * n <= 0)
  {
  }

  /** `int(str(n)) == n`, also with padding around the digits. */
  lemma ToIntOfText(n: int, a: string, b: string)
    requires AllSpace(a) && AllSpace(b)
    ensures ToInt(Text(a + IntToString(n) + b)) == Success(Int(n))
  {
    var s := IntToString(n);
    StripOfPadded(a, s, b);
    ParseIntToString(n);
  }

  // ---------------------------------------------------------------------------
  // The two write paths
  // ---------------------------------------------------------------------------

  const NotePrefix := "SUMA DE PRODUCTOS - Documentos: "

  /** A date assignment guarded by `pd.notna`: none for NaT. */
  function DateWrite(name: string, v: Value): seq<Write> {
    if v.Missing? then [] else [Write(name, v, true)]
  }

  /** The duplicate path: the summed Total, the audit note, and the first
      member's dates when they are not NaT. */
  function DuplicateWrites(a: Aggregated): (ws: seq<Write>)
    ensures DistinctNames(ws)
    ensures Names(ws) <= {TotalColumn, NotesColumn, OrderDateColumn, DueDateColumn}
    ensures |ws| >= 2 && ws[0].name == TotalColumn && ws[1].name == NotesColumn
    ensures forall k :: 2 <= k < |ws| ==>
              (ws[k].name == OrderDateColumn && !a.template.fechaPedido.Missing?)
              || (ws[k].name == DueDateColumn && !a.template.fechaVencimiento.Missing?)
    ensures !a.template.fechaPedido.Missing? ==> |ws| >= 3 && ws[2].name == OrderDateColumn
    ensures !a.template.fechaVencimiento.Missing? ==> ws[|ws| - 1].name == DueDateColumn
  {
    [Write(TotalColumn, a.template.total, false),
     Write(NotesColumn, Text(NotePrefix + a.documentos), false)]
    + DateWrite(OrderDateColumn, a.template.fechaPedido)
    + DateWrite(DueDateColumn, a.template.fechaVencimiento)
  }

  function WriteDuplicate(s: Sheet, r: nat, a: Aggregated): (t: Result<Sheet>)
    requires r < |s.rows|
    ensures t.Success? <==>
      (TotalColumn in s.header && NotesColumn in s.header
       && (!a.template.fechaPedido.Missing? ==> OrderDateColumn in s.header)
       && (!a.template.fechaVencimiento.Missing? ==> DueDateColumn in s.header))
    ensures t.Success? ==> WritesOnly(s, t.value, r, {TotalColumn, NotesColumn, OrderDateColumn, DueDateColumn})
  {
    Apply(s, r, DuplicateWrites(a))
  }

  /** After the duplicate path the ledger row holds the summed Total, the
      audit note, and each date that is not NaT, formatted as a date. */
  lemma DuplicateWritten(s: Sheet, r: nat, a: Aggregated)
    requires r < |s.rows|
    requires WriteDuplicate(s, r, a).Success?
    ensures var t := WriteDuplicate(s, r, a).value;
            Holds(t, r, Write(TotalColumn, a.template.total, false))
            && Holds(t, r, Write(NotesColumn, Text(NotePrefix + a.documentos), false))
            && (!a.template.fechaPedido.Missing? ==> Holds(t, r, Write(OrderDateColumn, a.template.fechaPedido, true)))
            && (!a.template.fechaVencimiento.Missing? ==> Holds(t, r, Write(DueDateColumn, a.template.fechaVencimiento, true)))
  {
    var ws := DuplicateWrites(a);
    ApplyHolds(s, r, ws);
    var k := |DateWrite(OrderDateColumn, a.template.fechaPedido)|;
    assert ws[0] == Write(TotalColumn, a.template.total, false);
    assert ws[1] == Write(NotesColumn, Text(NotePrefix + a.documentos), false);
    if !a.template.fechaPedido.Missing? {
      assert ws[2] == Write(OrderDateColumn, a.template.fechaPedido, true);
    }
    if !a.template.fechaVencimiento.Missing? {
      assert ws[2 + k] == Write(DueDateColumn, a.template.fechaVencimiento, true);
    }
  }

  /** Writing the same aggregate into the same row again changes nothing, so
      the repeated rows of a duplicated order leave the sheet as the first one
      did. */
  lemma WriteDuplicateIdempotent(s: Sheet, r: nat, a: Aggregated)
    requires r < |s.rows|
    requires WriteDuplicate(s, r, a).Success?
    ensures WriteDuplicate(WriteDuplicate(s, r, a).value, r, a) == WriteDuplicate(s, r, a)
  {
    ApplyIdempotent(s, r, DuplicateWrites(a));
  }

  /** The plain path's assignments before the document number: Total and the
      dates that are not NaT. */
  function PlainHead(e: Extraction): (ws: seq<Write>)
    ensures DistinctNames(ws)
    ensures Names(ws) <= {TotalColumn, OrderDateColumn, DueDateColumn}
    ensures |ws| >= 1 && ws[0].name == TotalColumn
    ensures forall k :: 1 <= k < |ws| ==>
              (ws[k].name == OrderDateColumn && !e.fechaPedido.Missing?)
              || (ws[k].name == DueDateColumn && !e.fechaVencimiento.Missing?)
    ensures !e.fechaPedido.Missing? ==> |ws| >= 2 && ws[1].name == OrderDateColumn
    ensures !e.fechaVencimiento.Missing? ==> ws[|ws| - 1].name == DueDateColumn
  {
    [Write(TotalColumn, e.total, false)]
    + DateWrite(OrderDateColumn, e.fechaPedido)
    + DateWrite(DueDateColumn, e.fechaVencimiento)
  }

  /** The plain path's assignments from the document number on. */
  function PlainTail(e: Extraction, doc: Value): (ws: seq<Write>)
    ensures DistinctNames(ws)
    ensures Names(ws) == {DocumentColumn, TypeColumn, DescriptionColumn, ChequeColumn, SupplierColumn}
    ensures |ws| == 5 && ws[0].name == DocumentColumn && ws[1].name == TypeColumn
            && ws[2].name == DescriptionColumn && ws[3].name == ChequeColumn && ws[4].name == SupplierColumn
  {
    var ws := [Write(DocumentColumn, doc, false), Write(TypeColumn, e.tipo, false),
               Write(DescriptionColumn, e.descripcion, false), Write(ChequeColumn, e.cheque, false),
               Write(SupplierColumn, e.proveedor, false)];
    assert Names(ws) == {ws[0].name, ws[1].name, ws[2].name, ws[3].name, ws[4].name};
    ws
  }

  /** The plain path, in the order of the source: Total, the two dates when not
      NaT, the document number converted with `int()` (whose error comes
      before a missing "Numero_Documento" column's), then the type,
      description, cheque and supplier. */
  function WritePlain(s: Sheet, r: nat, e: Extraction): (t: Result<Sheet>)
    requires r < |s.rows|
    ensures t.Success? <==>
      (TotalColumn in s.header
       && (!e.fechaPedido.Missing? ==> OrderDateColumn in s.header)
       && (!e.fechaVencimiento.Missing? ==> DueDateColumn in s.header)
       && ToInt(e.documento).Success?
       && DocumentColumn in s.header && TypeColumn in s.header && DescriptionColumn in s.header
       && ChequeColumn in s.header && SupplierColumn in s.header)
    ensures t.Success? ==> WritesOnly(s, t.value, r, Written)
  {
    var head := PlainHead(e);
    var s1 :- Apply(s, r, head);
    var doc :- ToInt(e.documento);
    var tail := PlainTail(e, doc);
    var t :- Apply(s1, r, tail);
    WritesOnlyTrans(s, s1, t, r, Names(head), Names(tail));
    Success(t)
  }

  /** A cell that holds survives later writes to columns of other names. */
  lemma HoldsKept(s: Sheet, t: Sheet, r: nat, names: set<string>, w: Write)
    requires WritesOnly(s, t, r, names)
    requires w.name in s.header && w.name !in names && Holds(s, r, w)
    ensures Holds(t, r, w)
  {
    var c := ColumnByName(s.header, w.name).value;
    assert CellAt(t, r, c) == CellAt(s, r, c);
  }

  /** An assignment of a first run still holds after a second run that names
      other columns. */
  lemma HeldAfter(s: Sheet, r: nat, head: seq<Write>, tail: seq<Write>, k: nat)
    requires r < |s.rows| && DistinctNames(head) && k < |head|
    requires Apply(s, r, head).Success? && Apply(Apply(s, r, head).value, r, tail).Success?
    requires head[k].name !in Names(tail)
    ensures Holds(Apply(Apply(s, r, head).value, r, tail).value, r, head[k])
  {
    var s1 := Apply(s, r, head).value;
    ApplyHolds(s, r, head);
    HoldsKept(s1, Apply(s1, r, tail).value, r, Names(tail), head[k]);
  }

  /** The plain path is its first run of assignments followed by its second. */
  lemma PlainSplit(s: Sheet, r: nat, e: Extraction)
    requires r < |s.rows|
    requires WritePlain(s, r, e).Success?
    ensures Apply(s, r, PlainHead(e)).Success?
    ensures Apply(Apply(s, r, PlainHead(e)).value, r, PlainTail(e, ToInt(e.documento).value)).Success?
    ensures WritePlain(s, r, e).value
            == Apply(Apply(s, r, PlainHead(e)).value, r, PlainTail(e, ToInt(e.documento).value)).value
  {
  }

  /** Each assignment of the first run still holds at the end of the plain
      path. */
  lemma PlainHeadHeld(s: Sheet, r: nat, e: Extraction, k: nat)
    requires r < |s.rows|
    requires WritePlain(s, r, e).Success?
    requires k < |PlainHead(e)|
    ensures Holds(WritePlain(s, r, e).value, r, PlainHead(e)[k])
  {
    var head := PlainHead(e);
    var tail := PlainTail(e, ToInt(e.documento).value);
    assert head[k].name in Names(head);
    assert head[k].name !in Names(tail);
    PlainSplit(s, r, e);
    HeldAfter(s, r, head, tail, k);
  }

  /** After the plain path the ledger row holds the row's Total and each date
      that is not NaT, in the date format. */
  lemma PlainHeadWritten(s: Sheet, r: nat, e: Extraction)
    requires r < |s.rows|
    requires WritePlain(s, r, e).Success?
    ensures var t := WritePlain(s, r, e).value;
            Holds(t, r, Write(TotalColumn, e.total, false))
            && (!e.fechaPedido.Missing? ==> Holds(t, r, Write(OrderDateColumn, e.fechaPedido, true)))
            && (!e.fechaVencimiento.Missing? ==> Holds(t, r, Write(DueDateColumn, e.fechaVencimiento, true)))
  {
    var head := PlainHead(e);
    assert head[0] == Write(TotalColumn, e.total, false);
    PlainHeadHeld(s, r, e, 0);
    if !e.fechaPedido.Missing? {
      assert head[1] == Write(OrderDateColumn, e.fechaPedido, true);
      PlainHeadHeld(s, r, e, 1);
    }
    if !e.fechaVencimiento.Missing? {
      assert head[|head| - 1] == Write(DueDateColumn, e.fechaVencimiento, true);
      PlainHeadHeld(s, r, e, |head| - 1);
    }
  }

  /** After the plain path the ledger row holds the row's document number as
      converted by `int()`, its type, description, cheque and supplier. */
  lemma PlainWritten(s: Sheet, r: nat, e: Extraction)
    requires r < |s.rows|
    requires WritePlain(s, r, e).Success?
    ensures var t := WritePlain(s, r, e).value;
            Holds(t, r, Write(DocumentColumn, ToInt(e.documento).value, false))
            && Holds(t, r, Write(TypeColumn, e.tipo, false))
            && Holds(t, r, Write(DescriptionColumn, e.descripcion, false))
            && Holds(t, r, Write(ChequeColumn, e.cheque, false))
            && Holds(t, r, Write(SupplierColumn, e.proveedor, false))
  {
    var s1 := Apply(s, r, PlainHead(e)).value;
    var tail := PlainTail(e, ToInt(e.documento).value);
    ApplyHolds(s1, r, tail);
    assert tail[0] == Write(DocumentColumn, ToInt(e.documento).value, false);
    assert tail[1] == Write(TypeColumn, e.tipo, false);
    assert tail[2] == Write(DescriptionColumn, e.descripcion, false);
    assert tail[3] == Write(ChequeColumn, e.cheque, false);
    assert tail[4] == Write(SupplierColumn, e.proveedor, false);
  }

  /** Ledger row `r` holds what the duplicate path writes for `a`: the summed
      Total, the audit note, and each date that is not NaT. */
  predicate DuplicateHeld(t: Sheet, r: nat, a: Aggregated)
    requires r < |t.rows|
  {
    TotalColumn in t.header && NotesColumn in t.header
    && Holds(t, r, Write(TotalColumn, a.template.total, false))
    && Holds(t, r, Write(NotesColumn, Text(NotePrefix + a.documentos), false))
    && (!a.template.fechaPedido.Missing? ==>
          OrderDateColumn in t.header && Holds(t, r, Write(OrderDateColumn, a.template.fechaPedido, true)))
    && (!a.template.fechaVencimiento.Missing? ==>
          DueDateColumn in t.header && Holds(t, r, Write(DueDateColumn, a.template.fechaVencimiento, true)))
  }

  /** Ledger row `r` holds what the plain path writes for `e`: Total, each date
      that is not NaT, the converted document number, type, description,
      cheque and supplier. */
  predicate PlainHeld(t: Sheet, r: nat, e: Extraction)
    requires r < |t.rows|
  {
    TotalColumn in t.header && DocumentColumn in t.header && TypeColumn in t.header
    && DescriptionColumn in t.header && ChequeColumn in t.header && SupplierColumn in t.header
    && ToInt(e.documento).Success?
    && Holds(t, r, Write(TotalColumn, e.total, false))
    && (!e.fechaPedido.Missing? ==>
          OrderDateColumn in t.header && Holds(t, r, Write(OrderDateColumn, e.fechaPedido, true)))
    && (!e.fechaVencimiento.Missing? ==>
          DueDateColumn in t.header && Holds(t, r, Write(DueDateColumn, e.fechaVencimiento, true)))
    && Holds(t, r, Write(DocumentColumn, ToInt(e.documento).value, false))
    && Holds(t, r, Write(TypeColumn, e.tipo, false))
    && Holds(t, r, Write(DescriptionColumn, e.descripcion, false))
    && Holds(t, r, Write(ChequeColumn, e.cheque, false))
    && Holds(t, r, Write(SupplierColumn, e.proveedor, false))
  }

  lemma DuplicateLands(s: Sheet, r: nat, a: Aggregated)
    requires r < |s.rows|
    requires WriteDuplicate(s, r, a).Success?
    ensures r < |WriteDuplicate(s, r, a).value.rows| && DuplicateHeld(WriteDuplicate(s, r, a).value, r, a)
  {
    DuplicateWritten(s, r, a);
  }

  lemma PlainLands(s: Sheet, r: nat, e: Extraction)
    requires r < |s.rows|
    requires WritePlain(s, r, e).Success?
    ensures r < |WritePlain(s, r, e).value.rows| && PlainHeld(WritePlain(s, r, e).value, r, e)
  {
    PlainHeadWritten(s, r, e);
    PlainWritten(s, r, e);
  }

  // ---------------------------------------------------------------------------
  // The loop
  // ---------------------------------------------------------------------------

  /** The sheet being written and the two counters. */
  datatype Progress = Progress(sheet: Sheet, updates: nat, noMatches: nat)

  /** The order numbers of a run of rows. */
  function OrderNumbers(rows: seq<Extraction>): set<string> {
    set i | 0 <= i < |rows| :: rows[i].pedido
  }

  lemma OrderNumbersSnoc(all: seq<Extraction>, n: nat)
    requires 0 < n <= |all|
    ensures OrderNumbers(all[..n]) == OrderNumbers(all[..n - 1]) + {all[n - 1].pedido}
  {
    assert all[..n] == all[..n - 1] + [all[n - 1]];
  }

  /** What the loop reads but never changes: the ledger's key column as text,
      the extraction rows, the result of `process_duplicates` (computed once,
      before the loop), and which guard is in force. */
  datatype Context = Context(keys: seq<string>, rows: seq<Extraction>,
                             aggregated: map<string, Aggregated>, duplicated: seq<string>,
                             corrected: bool)

  /** The duplicates part of the context is what `process_duplicates` returns
      for its rows. */
  predicate Consistent(cx: Context) {
    (cx.aggregated, cx.duplicated) == ProcessDuplicates(cx.rows)
  }

  /** Every order number that occurs twice among the rows has an aggregate.
      A consistent context has this property; the loop proofs need no more. */
  ghost predicate Grouped(cx: Context) {
    forall q: string :: CountOrder(cx.rows, q) >= 2 ==> q in cx.aggregated
  }

  /** Whether row `i` is skipped. As written the guard is
      `pedido in pedidos_duplicados and pedido not in processed_duplicates`;
      the corrected guard skips a row whose order number already occurred
      earlier. */
  predicate Skipped(cx: Context, i: nat)
    requires i < |cx.rows|
  {
    var p := cx.rows[i].pedido;
    if cx.corrected then p in OrderNumbers(cx.rows[..i]) else p in cx.duplicated && p !in cx.aggregated
  }

  /** How many of the first `n` rows get past the guard and find (`found`) or
      miss (`!found`) their order in the ledger. */
  function Reached(cx: Context, n: nat, found: bool): nat
    requires n <= |cx.rows|
  {
    if n == 0 then 0
    else
      Reached(cx, n - 1, found)
      + (if !Skipped(cx, n - 1) && (cx.rows[n - 1].pedido in cx.keys <==> found) then 1 else 0)
  }

  /** The ledger row extraction row `i` is written to: the first ledger row
      whose key equals its order number, unless the guard skips it. */
  function Target(cx: Context, i: nat): Option<nat>
    requires i < |cx.rows|
  {
    if Skipped(cx, i) then None else FirstMatch(cx.keys, cx.rows[i].pedido)
  }

  /** Ledger row `r` holds what extraction row `i` writes there: the aggregate
      of its order when that order is duplicated, its own fields otherwise. */
  predicate Landed(cx: Context, u: Sheet, r: nat, i: nat)
    requires i < |cx.rows| && r < |u.rows|
  {
    var e := cx.rows[i];
    if e.pedido in cx.aggregated then DuplicateHeld(u, r, cx.aggregated[e.pedido]) else PlainHeld(u, r, e)
  }

  /** The write for extraction row `i` into ledger row `row`: a duplicated
      order is written from its aggregate, any other order field by field. */
  function WriteRow(s: Sheet, cx: Context, i: nat, row: nat): (u: Result<Sheet>)
    requires i < |cx.rows| && row < |s.rows|
    ensures u.Success? ==> WritesOnly(s, u.value, row, Written)
    ensures u.Success? ==> row < |u.value.rows| && Landed(cx, u.value, row, i)
  {
    var e := cx.rows[i];
    if e.pedido in cx.aggregated then
      var sheet :- WriteDuplicate(s, row, cx.aggregated[e.pedido]);
      DuplicateLands(s, row, cx.aggregated[e.pedido]);
      Success(sheet)
    else
      var sheet :- WritePlain(s, row, e);
      PlainLands(s, row, e);
      Success(sheet)
  }

  /** The body of the loop for extraction row `i`: a row the guard skips
      changes nothing, a row whose order is not in the ledger counts a miss,
      and any other row writes its first matching ledger row. */
  function Step(t: Progress, cx: Context, i: nat): (r: Result<Progress>)
    requires i < |cx.rows| && |cx.keys| == |t.sheet.rows|
    ensures r.Success? ==> r.value.sheet.header == t.sheet.header && |r.value.sheet.rows| == |t.sheet.rows|
    ensures r.Success? ==>
              r.value.updates == t.updates + (if !Skipped(cx, i) && cx.rows[i].pedido in cx.keys then 1 else 0)
    ensures r.Success? ==>
              r.value.noMatches == t.noMatches + (if !Skipped(cx, i) && cx.rows[i].pedido !in cx.keys then 1 else 0)
    ensures r.Success? && Target(cx, i).None? ==> r.value.sheet == t.sheet
    ensures r.Success? && Target(cx, i).Some? ==> WritesOnly(t.sheet, r.value.sheet, Target(cx, i).value, Written)
    ensures r.Success? && Target(cx, i).Some? ==> Landed(cx, r.value.sheet, Target(cx, i).value, i)
  {
    if Skipped(cx, i) then Success(t)
    else
      match FirstMatch(cx.keys, cx.rows[i].pedido)
      case None => Success(t.(noMatches := t.noMatches + 1))
      case Some(row) =>
        var sheet :- WriteRow(t.sheet, cx, i, row);
        Success(Progress(sheet, t.updates + 1, t.noMatches))
  }

  /** The loop over the first `n` extraction rows, starting from ledger `s0`.
      An exception on any row ends the run (the workbook is then not saved). */
  function Loop(s0: Sheet, cx: Context, n: nat): (r: Result<Progress>)
    requires n <= |cx.rows| && |cx.keys| == |s0.rows|
    ensures r.Success? ==> r.value.sheet.header == s0.header && |r.value.sheet.rows| == |s0.rows|
    ensures r.Success? ==> r.value.updates == Reached(cx, n, true)
    ensures r.Success? ==> r.value.noMatches == Reached(cx, n, false)
  {
    if n == 0 then Success(Progress(s0, 0, 0))
    else
      var t :- Loop(s0, cx, n - 1);
      Step(t, cx, n - 1)
  }

  /** A successful run over `n` rows is a successful run over `n - 1` rows
      followed by the step for row `n - 1`. */
  lemma LoopStep(s0: Sheet, cx: Context, n: nat)
    requires 0 < n <= |cx.rows| && |cx.keys| == |s0.rows|
    requires Loop(s0, cx, n).Success?
    ensures Loop(s0, cx, n - 1).Success?
    ensures Loop(s0, cx, n) == Step(Loop(s0, cx, n - 1).value, cx, n - 1)
  {
  }

  /** One step leaves a ledger row alone whose key is not the step's order
      number. */
  lemma StepKeepsRow(t: Progress, cx: Context, i: nat, row: nat)
    requires i < |cx.rows| && |cx.keys| == |t.sheet.rows|
    requires Step(t, cx, i).Success?
    requires row < |cx.keys| && cx.keys[row] != cx.rows[i].pedido
    ensures Step(t, cx, i).value.sheet.rows[row] == t.sheet.rows[row]
  {
    var target := Target(cx, i);
    assert target.Some? ==> cx.keys[target.value] == cx.rows[i].pedido;
  }

  /** One step keeps every cell's presentation, and every cell of a column it
      does not write. */
  lemma StepKeepsCell(t: Progress, cx: Context, i: nat, row: nat, c: nat)
    requires i < |cx.rows| && |cx.keys| == |t.sheet.rows|
    requires Step(t, cx, i).Success?
    ensures var u := Step(t, cx, i).value.sheet;
            CellAt(u, row, c).style.presentation == CellAt(t.sheet, row, c).style.presentation
            && (!Writable(t.sheet.header, c) ==> CellAt(u, row, c) == CellAt(t.sheet, row, c))
  {
    var u := Step(t, cx, i).value.sheet;
    var target := Target(cx, i);
    if target.Some? && target.value != row && row < |u.rows| {
      assert u.rows[row] == t.sheet.rows[row];
    }
  }

  /** The loop keeps every cell's presentation, and never changes a cell
      outside the columns it writes. */
  lemma {:induction false} LoopKeepsCell(s0: Sheet, cx: Context, n: nat, row: nat, c: nat)
    requires n <= |cx.rows| && |cx.keys| == |s0.rows|
    requires Loop(s0, cx, n).Success?
    ensures var u := Loop(s0, cx, n).value.sheet;
            CellAt(u, row, c).style.presentation == CellAt(s0, row, c).style.presentation
            && (!Writable(s0.header, c) ==> CellAt(u, row, c) == CellAt(s0, row, c))
  {
    if n > 0 {
      LoopStep(s0, cx, n);
      LoopKeepsCell(s0, cx, n - 1, row, c);
      StepKeepsCell(Loop(s0, cx, n - 1).value, cx, n - 1, row, c);
    }
  }

  /** A ledger row whose key is none of the order numbers read so far is left
      as it was. */
  lemma {:induction false} LoopKeepsRow(s0: Sheet, cx: Context, n: nat, row: nat)
    requires n <= |cx.rows| && |cx.keys| == |s0.rows|
    requires Loop(s0, cx, n).Success?
    requires row < |cx.keys| && cx.keys[row] !in OrderNumbers(cx.rows[..n])
    ensures Loop(s0, cx, n).value.sheet.rows[row] == s0.rows[row]
  {
    if n > 0 {
      OrderNumbersSnoc(cx.rows, n);
      LoopStep(s0, cx, n);
      LoopKeepsRow(s0, cx, n - 1, row);
      StepKeepsRow(Loop(s0, cx, n - 1).value, cx, n - 1, row);
    }
  }

  /** What a ledger row holds depends on that row and the header alone. */
  lemma LandedKept(cx: Context, t: Sheet, u: Sheet, r: nat, i: nat)
    requires i < |cx.rows| && r < |t.rows| && r < |u.rows|
    requires u.header == t.header && u.rows[r] == t.rows[r]
    requires Landed(cx, t, r, i)
    ensures Landed(cx, u, r, i)
  {
  }

  /** A later step keeps what extraction row `i` left in its ledger row: a row
      of another order does not touch that ledger row, and a row of the same
      order (which is then a duplicated order) is skipped or writes the same
      aggregate again. */
  lemma StepKeepsLanded(t: Progress, cx: Context, i: nat, j: nat)
    requires Grouped(cx) && i < j < |cx.rows| && |cx.keys| == |t.sheet.rows|
    requires Step(t, cx, j).Success? && Target(cx, i).Some?
    requires Landed(cx, t.sheet, Target(cx, i).value, i)
    ensures Landed(cx, Step(t, cx, j).value.sheet, Target(cx, i).value, i)
  {
    var u := Step(t, cx, j).value.sheet;
    var row := Target(cx, i).value;
    var p := cx.rows[i].pedido;
    if cx.rows[j].pedido != p {
      StepKeepsRow(t, cx, j, row);
      LandedKept(cx, t.sheet, u, row, i);
    } else {
      CountOrderTwo(cx.rows, p, i, j);
      if Target(cx, j).None? {
        LandedKept(cx, t.sheet, u, row, i);
      }
    }
  }

  /** Once extraction row `i` has written its ledger row, the rest of the loop
      leaves there what it wrote. */
  lemma {:induction false} LoopWrites(s0: Sheet, cx: Context, n: nat, i: nat)
    requires Grouped(cx) && i < n <= |cx.rows| && |cx.keys| == |s0.rows|
    requires Loop(s0, cx, n).Success? && Target(cx, i).Some?
    ensures Target(cx, i).value < |Loop(s0, cx, n).value.sheet.rows|
    ensures Landed(cx, Loop(s0, cx, n).value.sheet, Target(cx, i).value, i)
  {
    var t := Loop(s0, cx, n - 1).value;
    assert Loop(s0, cx, n) == Step(t, cx, n - 1);
    if i < n - 1 {
      LoopWrites(s0, cx, n - 1, i);
      StepKeepsLanded(t, cx, i, n - 1);
    }
  }

  /** The first row carrying the order number of row `i`. */
  lemma {:induction false} Earliest(rows: seq<Extraction>, i: nat) returns (j: nat)
    requires i < |rows|
    ensures j <= i && rows[j].pedido == rows[i].pedido && rows[i].pedido !in OrderNumbers(rows[..j])
    decreases i
  {
    var p := rows[i].pedido;
    if p in OrderNumbers(rows[..i]) {
      var k :| 0 <= k < i && rows[..i][k].pedido == p;
      assert rows[..i][k] == rows[k];
      j := Earliest(rows, k);
    } else {
      j := i;
    }
  }

  /** The context `merge_data` runs its loop in. */
  function ContextOf(keys: seq<string>, rows: seq<Extraction>, corrected: bool): (cx: Context)
    ensures Consistent(cx) && cx.keys == keys && cx.rows == rows && cx.corrected == corrected
  {
    var d := ProcessDuplicates(rows);
    Context(keys, rows, d.0, d.1, corrected)
  }

  /** The merge over the whole extraction sheet: the ledger's key column is
      read first (`KeyError` when it is missing), then the duplicates are
      aggregated, then the loop runs. */
  function Run(s: Sheet, rows: seq<Extraction>, corrected: bool): (r: Result<Progress>)
    ensures KeyHeader !in s.header ==> r.Failure?
    ensures r.Success? ==> r.value.sheet.header == s.header && |r.value.sheet.rows| == |s.rows|
  {
    var keys :- KeyColumn(s);
    Loop(s, ContextOf(keys, rows, corrected), |rows|)
  }

  /** `merge_data` as written: every extraction row is counted exactly once,
      so `updates + no_matches` is the number of rows, repeats included. */
  function MergeAsWritten(s: Sheet, rows: seq<Extraction>): (r: Result<Progress>)
    ensures KeyHeader !in s.header ==> r.Failure?
    ensures r.Success? ==> r.value.sheet.header == s.header && |r.value.sheet.rows| == |s.rows|
    ensures r.Success? ==> r.value.updates + r.value.noMatches == |rows|
  {
    var r := Run(s, rows, false);
    if r.Success? then
      ReachedAll(ContextOf(KeyColumn(s).value, rows, false), |rows|);
      r
    else r
  }

  /** `merge_data` with the guard its comment describes: every order number
      is counted exactly once. */
  function MergeData(s: Sheet, rows: seq<Extraction>): (r: Result<Progress>)
    ensures KeyHeader !in s.header ==> r.Failure?
    ensures r.Success? ==> r.value.sheet.header == s.header && |r.value.sheet.rows| == |s.rows|
    ensures r.Success? ==> r.value.updates + r.value.noMatches == |OrderNumbers(rows)|
  {
    var r := Run(s, rows, true);
    if r.Success? then
      ReachedFirsts(ContextOf(KeyColumn(s).value, rows, true), |rows|);
      assert rows[..|rows|] == rows;
      r
    else r
  }

  /** What a successful merge leaves alone: the header row, every column it
      does not write, every ledger row whose key is not an extracted order
      number, and every cell's presentation. */
  lemma MergeKeeps(s: Sheet, rows: seq<Extraction>, corrected: bool)
    ensures Run(s, rows, corrected).Success? ==>
            var t := Run(s, rows, corrected).value.sheet;
            t.header == s.header && |t.rows| == |s.rows|
            && (forall row: nat, c: nat :: !Writable(s.header, c) ==> CellAt(t, row, c) == CellAt(s, row, c))
            && (forall row :: 0 <= row < |s.rows| && KeyColumn(s).value[row] !in OrderNumbers(rows) ==>
                  t.rows[row] == s.rows[row])
            && (forall row: nat, c: nat :: CellAt(t, row, c).style.presentation == CellAt(s, row, c).style.presentation)
  {
    if Run(s, rows, corrected).Success? {
      var keys := KeyColumn(s).value;
      var cx := ContextOf(keys, rows, corrected);
      assert rows[..|rows|] == rows;
      forall row: nat, c: nat ensures
        var t := Run(s, rows, corrected).value.sheet;
        CellAt(t, row, c).style.presentation == CellAt(s, row, c).style.presentation
        && (!Writable(s.header, c) ==> CellAt(t, row, c) == CellAt(s, row, c))
      {
        LoopKeepsCell(s, cx, |rows|, row, c);
      }
      forall row | 0 <= row < |s.rows| && keys[row] !in OrderNumbers(rows)
        ensures Run(s, rows, corrected).value.sheet.rows[row] == s.rows[row]
      {
        LoopKeepsRow(s, cx, |rows|, row);
      }
    }
  }

  /** What a successful merge writes: the first ledger row keyed by an
      extracted order number ends up holding that order's aggregate (summed
      Total, audit note, dates) when the order is duplicated, and otherwise the
      fields of the one extraction row that carries it. */
  lemma MergeDataWrites(s: Sheet, rows: seq<Extraction>, corrected: bool, i: nat)
    requires i < |rows|
    ensures Run(s, rows, corrected).Success? && rows[i].pedido in KeyColumn(s).value ==>
              var u := Run(s, rows, corrected).value.sheet;
              var row := FirstMatch(KeyColumn(s).value, rows[i].pedido).value;
              var aggregated := ProcessDuplicates(rows).0;
              row < |u.rows|
              && (rows[i].pedido in aggregated ==> DuplicateHeld(u, row, aggregated[rows[i].pedido]))
              && (rows[i].pedido !in aggregated ==> PlainHeld(u, row, rows[i]))
  {
    if Run(s, rows, corrected).Success? && rows[i].pedido in KeyColumn(s).value {
      var cx := ContextOf(KeyColumn(s).value, rows, corrected);
      var p := rows[i].pedido;
      var j := Earliest(rows, i);
      if !corrected {
        GuardNeverFires(cx, j);
      }
      assert Target(cx, j).Some?;
      LoopWrites(s, cx, |rows|, j);
      if j < i {
        CountOrderTwo(rows, p, j, i);
      }
    }
  }

  // ---------------------------------------------------------------------------
  // Counting
  // ---------------------------------------------------------------------------

  /** The guard as written never fires: every duplicated order number is a
      key of the processed dictionary. */
  lemma GuardNeverFires(cx: Context, i: nat)
    requires Consistent(cx) && !cx.corrected && i < |cx.rows|
    ensures !Skipped(cx, i)
  {
  }

  lemma {:induction false} ReachedAll(cx: Context, n: nat)
    requires Consistent(cx) && !cx.corrected && n <= |cx.rows|
    ensures Reached(cx, n, true) + Reached(cx, n, false) == n
  {
    if n > 0 {
      ReachedAll(cx, n - 1);
      GuardNeverFires(cx, n - 1);
    }
  }

  lemma {:induction false} ReachedFirsts(cx: Context, n: nat)
    requires cx.corrected && n <= |cx.rows|
    ensures Reached(cx, n, true) + Reached(cx, n, false) == |OrderNumbers(cx.rows[..n])|
  {
    if n > 0 {
      ReachedFirsts(cx, n - 1);
      OrderNumbersSnoc(cx.rows, n);
      var earlier := OrderNumbers(cx.rows[..n - 1]);
      var p := cx.rows[n - 1].pedido;
      assert Skipped(cx, n - 1) <==> p in earlier;
      if p in earlier {
        assert earlier + {p} == earlier;
      } else {
        assert |earlier + {p}| == |earlier| + 1;
      }
    } else {
      assert OrderNumbers(cx.rows[..0]) == {};
    }
  }

  lemma {:induction false} OrderNumbersBound(rows: seq<Extraction>)
    ensures |OrderNumbers(rows)| <= |rows|
  {
    if |rows| > 0 {
      var p := rows[..|rows| - 1];
      OrderNumbersBound(p);
      assert OrderNumbers(rows) == OrderNumbers(p) + {rows[|rows| - 1].pedido} by {
        assert forall i :: 0 <= i < |p| ==> p[i] == rows[i];
      }
    } else {
      assert OrderNumbers(rows) == {};
    }
  }

  /** When some order number repeats there are fewer orders than rows. */
  lemma RepeatedOrderOvercounts(rows: seq<Extraction>, i: nat, j: nat)
    requires i < j < |rows| && rows[i].pedido == rows[j].pedido
    ensures |OrderNumbers(rows)| < |rows|
  {
    var others := rows[..j] + rows[j + 1..];
    OrderNumbersBound(others);
    assert OrderNumbers(others) <= OrderNumbers(rows) by {
      forall q | q in OrderNumbers(others) ensures q in OrderNumbers(rows) {
        var k :| 0 <= k < |others| && others[k].pedido == q;
        if k < j {
          assert others[k] == rows[k];
        } else {
          assert others[k] == rows[k + 1];
        }
      }
    }
    assert OrderNumbers(rows) <= OrderNumbers(others) by {
      forall q | q in OrderNumbers(rows) ensures q in OrderNumbers(others) {
        var k :| 0 <= k < |rows| && rows[k].pedido == q;
        if k < j {
          assert others[k] == rows[k];
        } else if k > j {
          assert others[k - 1] == rows[k];
        } else {
          assert others[i] == rows[i];
        }
      }
    }
    assert OrderNumbers(rows) == OrderNumbers(others);
  }

  /** As written, a repeated order number makes `updates + no_matches` exceed
      the number of distinct orders, whereas the corrected merge reports exactly
      that number. */
  lemma AsWrittenOvercounts(s: Sheet, rows: seq<Extraction>, i: nat, j: nat)
    requires i < j < |rows| && rows[i].pedido == rows[j].pedido
    ensures MergeAsWritten(s, rows).Success? ==>
              MergeAsWritten(s, rows).value.updates + MergeAsWritten(s, rows).value.noMatches
              > |OrderNumbers(rows)|
  {
    RepeatedOrderOvercounts(rows, i, j);
  }
}

=== FILE: strings.dfy ===
/** The Python string operations the scripts rely on, over `string = seq<char>`:
    `str.split()`, `str.split(c)`, `sep.join(xs)`, `str.strip()`, `str.replace(c, "")`,
    `sub in s`, `str.isdigit()` and `str(int)` / `int(str)`. */
module Strings {
  import opened Wrappers

  /** Whitespace as `str.split()` and `str.strip()` see it, restricted to ASCII:
      space, the controls \t \n \v \f \r, and the separators \x1c-\x1f. */
  predicate IsSpace(c: char) {
    c == ' ' || ('\t' <= c <= '\r') || ('\U{1C}' <= c <= '\U{1F}')
  }

  predicate NoSpace(s: string) {
    forall i :: 0 <= i < |s| ==> !IsSpace(s[i])
  }

  predicate AllSpace(s: string) {
    forall i :: 0 <= i < |s| ==> IsSpace(s[i])
  }

  /** `str.isdigit()` restricted to the ASCII digits '0'..'9'. */
  predicate IsDigit(c: char) {
    '0' <= c <= '9'
  }

  predicate AllDigits(s: string) {
    forall i :: 0 <= i < |s| ==> IsDigit(s[i])
  }

  /** `s.endswith(suffix)`. */
  predicate EndsWith(s: string, suffix: string) {
    |s| >= |suffix| && s[|s| - |suffix|..] == suffix
  }

  /** `s.isdigit()`: false on the empty string. */
  predicate IsDigits(s: string) {
    |s| > 0 && AllDigits(s)
  }

  // ---------------------------------------------------------------------------
  // Stripping and whitespace splitting
  // ---------------------------------------------------------------------------

  /** `s.lstrip()`: drops the leading whitespace (see `TrimStartShape`). */
  function TrimStart(s: string): (r: string)
    ensures |r| <= |s|
    ensures r == [] || !IsSpace(r[0])
  {
    if s != [] && IsSpace(s[0]) then TrimStart(s[1..]) else s
  }

  /** What `lstrip()` drops is whitespace, and what it keeps is a suffix. */
  lemma {:induction false} TrimStartShape(s: string)
    ensures TrimStart(s) == s[|s| - |TrimStart(s)|..]
    ensures AllSpace(s[..|s| - |TrimStart(s)|])
  {
    if s != [] && IsSpace(s[0]) {
      TrimStartShape(s[1..]);
      var r := TrimStart(s[1..]);
      assert s[..|s| - |r|] == [s[0]] + s[1..][..|s| - 1 - |r|];
    }
  }

  /** `s.rstrip()`: drops the trailing whitespace and nothing else. */
  function TrimEnd(s: string): (r: string)
    ensures |r| <= |s| && r == s[..|r|]
    ensures AllSpace(s[|r|..])
    ensures r == [] || !IsSpace(r[|r| - 1])
  {
    if s != [] && IsSpace(s[|s| - 1]) then
      var r := TrimEnd(s[..|s| - 1]);
      assert s[|r|..] == s[..|s| - 1][|r|..] + [s[|s| - 1]];
      r
    else
      s
  }

  /** `s.strip()`. */
  function Strip(s: string): (r: string)
    ensures |r| <= |s|
    ensures r == [] || (!IsSpace(r[0]) && !IsSpace(r[|r| - 1]))
  {
    TrimEnd(TrimStart(s))
  }

  lemma {:induction false} TrimStartOfPadded(a: string, t: string)
    requires AllSpace(a)
    requires t == [] || !IsSpace(t[0])
    ensures TrimStart(a + t) == t
  {
    if a != [] {
      assert (a + t)[1..] == a[1..] + t;
      TrimStartOfPadded(a[1..], t);
    }
  }

  lemma {:induction false} TrimEndOfPadded(t: string, b: string)
    requires AllSpace(b)
    requires t == [] || !IsSpace(t[|t| - 1])
    ensures TrimEnd(t + b) == t
  {
    if b != [] {
      assert (t + b)[..|t + b| - 1] == t + b[..|b| - 1];
      TrimEndOfPadded(t, b[..|b| - 1]);
    }
  }

  /** `strip()` removes exactly the whitespace padding around a text whose
      ends are not whitespace; every string has that shape, so this pins
      `Strip` down completely. */
  lemma StripOfPadded(a: string, x: string, b: string)
    requires AllSpace(a) && AllSpace(b)
    requires x == [] || (!IsSpace(x[0]) && !IsSpace(x[|x| - 1]))
    ensures Strip(a + x + b) == x
  {
    if x == [] {
      assert a + x + b == (a + b) + [];
      TrimStartOfPadded(a + b, []);
    } else {
      assert a + x + b == a + (x + b);
      TrimStartOfPadded(a, x + b);
      TrimEndOfPadded(x, b);
    }
  }

  /** The longest whitespace-free prefix of `s`. */
  function Word(s: string): (w: string)
    ensures |w| <= |s| && w == s[..|w|] && NoSpace(w)
    ensures |w| == |s| || IsSpace(s[|w|])
    ensures s != [] && !IsSpace(s[0]) ==> w != []
  {
    if s == [] || IsSpace(s[0]) then [] else [s[0]] + Word(s[1..])
  }

  /** A token of `str.split()`: non-empty and free of whitespace. */
  predicate IsToken(w: string) {
    w != [] && NoSpace(w)
  }

  /** `s.split()` with no argument: the maximal runs of non-whitespace, in order. */
  function Words(s: string): (ws: seq<string>)
    ensures |ws| <= |s|
    decreases |s|
  {
    var t := TrimStart(s);
    if t == [] then []
    else
      var w := Word(t);
      [w] + Words(t[|w|..])
  }

  /** `str.split()` never yields an empty token or one holding whitespace. */
  lemma {:induction false} WordsAreTokens(s: string)
    ensures forall i :: 0 <= i < |Words(s)| ==> IsToken(Words(s)[i])
    decreases |s|
  {
    var t := TrimStart(s);
    if t != [] {
      var w := Word(t);
      WordsAreTokens(t[|w|..]);
      assert Words(s) == [w] + Words(t[|w|..]);
    }
  }

  /** `sep.join(xs)`. */
  function Join(xs: seq<string>, sep: string): string
  {
    if |xs| == 0 then ""
    else if |xs| == 1 then xs[0]
    else xs[0] + sep + Join(xs[1..], sep)
  }

  lemma JoinCons(a: string, rest: seq<string>, sep: string)
    requires |rest| >= 1
    ensures Join([a] + rest, sep) == a + sep + Join(rest, sep)
  {
    assert ([a] + rest)[1..] == rest;
  }

  lemma {:induction false} WordOfToken(w: string, rest: string)
    requires NoSpace(w)
    requires rest == [] || IsSpace(rest[0])
    ensures Word(w + rest) == w
  {
    if w != [] {
      assert (w + rest)[1..] == w[1..] + rest;
      WordOfToken(w[1..], rest);
    } else {
      assert w + rest == rest;
    }
  }

  lemma WordsOfTokenThen(x: string, rest: string)
    requires IsToken(x)
    requires rest == [] || IsSpace(rest[0])
    ensures Words(x + rest) == [x] + Words(rest)
  {
    var s := x + rest;
    assert s == [] + s;
    TrimStartOfPadded([], s);
    WordOfToken(x, rest);
    assert s[|x|..] == rest;
  }

  lemma WordsAfterSpace(j: string)
    ensures Words(" " + j) == Words(j)
  {
    assert (" " + j)[1..] == j;
    assert TrimStart(" " + j) == TrimStart(j);
  }

  lemma WordsOfJoinStep(xs: seq<string>)
    requires |xs| > 1 && IsToken(xs[0])
    ensures Words(Join(xs, " ")) == [xs[0]] + Words(Join(xs[1..], " "))
  {
    var j := Join(xs[1..], " ");
    assert Join(xs, " ") == xs[0] + (" " + j);
    WordsOfTokenThen(xs[0], " " + j);
    WordsAfterSpace(j);
  }

  lemma WordsOfSingle(x: string)
    requires IsToken(x)
    ensures Words(Join([x], " ")) == [x]
  {
    assert Join([x], " ") == x + [];
    WordsOfTokenThen(x, []);
  }

  /** Splitting a single-space join of tokens gives the tokens back: `str.split()`
      inverts `" ".join` on non-empty, whitespace-free tokens. */
  lemma {:induction false} WordsOfJoin(xs: seq<string>)
    requires forall i :: 0 <= i < |xs| ==> IsToken(xs[i])
    ensures Words(Join(xs, " ")) == xs
  {
    if |xs| == 1 {
      assert xs == [xs[0]];
      WordsOfSingle(xs[0]);
    } else if |xs| > 1 {
      WordsOfJoinStep(xs);
      WordsOfJoin(xs[1..]);
      assert xs == [xs[0]] + xs[1..];
    }
  }

  // ---------------------------------------------------------------------------
  // Splitting on one character
  // ---------------------------------------------------------------------------

  /** Position of the first `c` in `s`. */
  function IndexOf(s: string, c: char): (i: nat)
    requires c in s
    ensures i < |s| && s[i] == c && c !in s[..i]
  {
    if s[0] == c then 0
    else
      var i := 1 + IndexOf(s[1..], c);
      assert s[..i] == [s[0]] + s[1..][..i - 1];
      i
  }

  lemma IndexOfAfter(a: string, c: char, b: string)
    requires c !in a
    ensures c in a + [c] + b && IndexOf(a + [c] + b, c) == |a|
  {
    var s := a + [c] + b;
    assert s[|a|] == c;
    var i := IndexOf(s, c);
    assert s[..|a|] == a;
  }

  /** `s.split(c)` for a one-character separator: the pieces between separators,
      always at least one. */
  function SplitOn(s: string, c: char): (parts: seq<string>)
    ensures |parts| >= 1
    ensures c in s <==> |parts| >= 2
    ensures forall k :: 0 <= k < |parts| ==> c !in parts[k]
    ensures Join(parts, [c]) == s
    decreases |s|
  {
    if c !in s then [s]
    else
      var i := IndexOf(s, c);
      var rest := SplitOn(s[i + 1..], c);
      var parts := [s[..i]] + rest;
      assert parts[1..] == rest;
      assert s == s[..i] + [c] + s[i + 1..];
      parts
  }

  /** `c.join` and `split(c)` are inverse on pieces free of `c`. */
  lemma {:induction false} SplitOnJoin(xs: seq<string>, c: char)
    requires |xs| >= 1
    requires forall k :: 0 <= k < |xs| ==> c !in xs[k]
    ensures SplitOn(Join(xs, [c]), c) == xs
  {
    if |xs| > 1 {
      var rest := xs[1..];
      var j := Join(rest, [c]);
      assert Join(xs, [c]) == xs[0] + [c] + j;
      SplitOnAfterFirst(xs[0], c, j);
      forall k | 0 <= k < |rest| ensures c !in rest[k] {
        assert rest[k] == xs[k + 1];
      }
      SplitOnJoin(rest, c);
      assert xs == [xs[0]] + rest;
    }
  }

  lemma SplitOnAfterFirst(pre: string, c: char, t: string)
    requires c !in pre
    ensures SplitOn(pre + [c] + t, c) == [pre] + SplitOn(t, c)
  {
    var s := pre + [c] + t;
    IndexOfAfter(pre, c, t);
    assert s[..|pre|] == pre;
    assert s[|pre| + 1..] == t;
  }

  lemma SplitOnFirstPiece(seg: string, c: char, rest: string)
    requires c !in seg
    requires rest == [] || rest[0] == c
    ensures SplitOn(seg + rest, c)[0] == seg
  {
    if rest == [] {
      assert seg + rest == seg;
    } else {
      assert seg + rest == seg + [c] + rest[1..];
      SplitOnAfterFirst(seg, c, rest[1..]);
    }
  }

  /** The second piece of `s.split(c)` is the text between the first and the
      second separator (or the end of `s`). */
  lemma SecondPiece(pre: string, c: char, seg: string, rest: string)
    requires c !in pre && c !in seg
    requires rest == [] || rest[0] == c
    ensures |SplitOn(pre + [c] + seg + rest, c)| >= 2
    ensures SplitOn(pre + [c] + seg + rest, c)[1] == seg
  {
    assert pre + [c] + seg + rest == pre + [c] + (seg + rest);
    SplitOnAfterFirst(pre, c, seg + rest);
    SplitOnFirstPiece(seg, c, rest);
  }

  // ---------------------------------------------------------------------------
  // Substring test and character removal
  // ---------------------------------------------------------------------------

  /** `sub in s` for strings. */
  predicate Contains(s: string, sub: string)
    decreases |s|
  {
    sub <= s || (s != [] && Contains(s[1..], sub))
  }

  lemma {:induction false} ContainsInfix(a: string, sub: string, b: string)
    ensures Contains(a + sub + b, sub)
  {
    if a == [] {
      assert a + sub + b == sub + b;
    } else {
      assert (a + sub + b)[1..] == a[1..] + sub + b;
      ContainsInfix(a[1..], sub, b);
    }
  }

  /** The characters of `s` other than `c`, in order. */
  function Removed(s: string, c: char): string {
    if s == [] then []
    else (if s[0] == c then [] else [s[0]]) + Removed(s[1..], c)
  }

  lemma {:induction false} RemovedCounts(s: string, c: char)
    ensures multiset(Removed(s, c)) == multiset(s)[c := 0]
  {
    if s != [] {
      RemovedCounts(s[1..], c);
      assert s == [s[0]] + s[1..];
      assert multiset(s) == multiset([s[0]]) + multiset(s[1..]);
    }
  }

  lemma {:induction false} RemovedAppend(a: string, b: string, c: char)
    ensures Removed(a + b, c) == Removed(a, c) + Removed(b, c)
  {
    if a == [] {
      assert a + b == b;
    } else {
      assert (a + b)[0] == a[0];
      assert (a + b)[1..] == a[1..] + b;
      RemovedAppend(a[1..], b, c);
    }
  }

  /** `s.replace(c, "")`. */
  function DropChar(s: string, c: char): (r: string)
    ensures c !in r
    ensures |r| <= |s|
    ensures multiset(r) == multiset(s)[c := 0]
    ensures |s| == 1 ==> r == (if s[0] == c then [] else s)
  {
    RemovedCounts(s, c);
    assert multiset(Removed(s, c))[c] == 0;
    Removed(s, c)
  }

  /** Removal works piece by piece: with the single-character case above, this
      pins `DropChar(s, c)` down as `s` with every `c` taken out and the other
      characters kept in their order. */
  lemma DropCharAppend(a: string, b: string, c: char)
    ensures DropChar(a + b, c) == DropChar(a, c) + DropChar(b, c)
  {
    RemovedAppend(a, b, c);
  }

  lemma {:induction false} DropCharAbsent(s: string, c: char)
    requires c !in s
    ensures DropChar(s, c) == s
  {
    if s != [] {
      assert c !in s[1..];
      DropCharAbsent(s[1..], c);
      assert s == [s[0]] + s[1..];
    }
  }

  // ---------------------------------------------------------------------------
  // Integers in decimal
  // ---------------------------------------------------------------------------

  function DigitChar(d: nat): (c: char)
    requires d < 10
    ensures IsDigit(c)
  {
    (48 + d) as char
  }

  function DigitValue(c: char): (d: nat)
    requires IsDigit(c)
    ensures d < 10 && DigitChar(d) == c
  {
    c as int - 48
  }

  /** `str(n)` for a non-negative integer. */
  function NatToString(n: nat): (s: string)
    ensures IsDigits(s)
    decreases n
  {
    if n < 10 then [DigitChar(n)] else NatToString(n / 10) + [DigitChar(n % 10)]
  }

  /** The value of a run of decimal digits (0 for the empty run). */
  function ParseDigits(s: string): nat
    requires AllDigits(s)
  {
    if s == [] then 0 else 10 * ParseDigits(s[..|s| - 1]) + DigitValue(s[|s| - 1])
  }

  lemma {:induction false} ParseNatToString(n: nat)
    ensures ParseDigits(NatToString(n)) == n
    decreases n
  {
    var s := NatToString(n);
    if n >= 10 {
      assert s[..|s| - 1] == NatToString(n / 10);
      ParseNatToString(n / 10);
    }
  }

  /** `str(n)`. */
  function IntToString(n: int): (s: string)
    ensures s != [] && NoSpace(s) && ',' !in s && '.' !in s
  {
    if n < 0 then "-" + NatToString(-n) else NatToString(n)
  }

  /** `int(s)` on text holding an optional sign and decimal digits; anything
      else raises `ValueError`, shown here as `None`. */
  function ParseInt(s: string): (r: Option<int>)
    ensures r.Some? ==> |s| > 0
  {
    if s != [] && (s[0] == '-' || s[0] == '+') then
      if IsDigits(s[1..]) then
        var m: int := ParseDigits(s[1..]);
        Some(if s[0] == '-' then -m else m)
      else None
    else if IsDigits(s) then Some(ParseDigits(s))
    else None
  }

  /** `int(str(n)) == n`. */
  lemma ParseIntToString(n: int)
    ensures ParseInt(IntToString(n)) == Some(n)
  {
    var s := IntToString(n);
    if n < 0 {
      assert s[1..] == NatToString(-n);
      ParseNatToString(-n);
    } else {
      ParseNatToString(n);
    }
  }
}

=== FILE: values.dfy ===
/** Cell values as the scripts meet them in data frames and worksheets, tagged by
    their Python type, with `str()` and `pd.to_numeric(..., errors='coerce')`. */
module Values {
  import opened Strings

  /** - Missing: `None` in a worksheet cell, `NaN` / `NaT` in a data frame;
      - Text: a `str`;
      - Int: an `int`;
      - Amount: a `float` with at most two decimals, held in hundredths;
      - Date: a `datetime` / `Timestamp` at midnight. */
  datatype Value =
    | Missing
    | Text(s: string)
    | Int(n: int)
    | Amount(cents: int)
    | Date(year: nat, month: nat, day: nat)

  /** `s` left-padded with zeros to at least `width` characters. */
  function PadZeros(s: string, width: nat): (r: string)
    ensures |r| >= width && |r| >= |s|
    ensures AllDigits(s) ==> AllDigits(r)
    decreases width - |s|
  {
    if |s| >= width then s else PadZeros("0" + s, width)
  }

  /** The decimals of `repr(float)` for a fraction of `f` hundredths: at least
      one digit, no trailing zero after the first. */
  function FractionText(f: nat): (r: string)
    requires f < 100
    ensures 1 <= |r| <= 2 && AllDigits(r)
  {
    if f == 0 then "0"
    else if f % 10 == 0 then [DigitChar(f / 10)]
    else [DigitChar(f / 10), DigitChar(f % 10)]
  }

  /** `str(x)` of a float holding `cents` hundredths: "1234.56", "100.0",
      "-0.5". */
  function ShowAmount(cents: int): (r: string)
    ensures r != [] && NoSpace(r) && ',' !in r
  {
    var a := if cents < 0 then -cents else cents;
    var r := (if cents < 0 then "-" else "") + NatToString(a / 100) + "." + FractionText(a % 100);
    assert forall i :: 0 <= i < |r| ==> r[i] == '-' || r[i] == '.' || IsDigit(r[i]);
    r
  }

  /** `str(v)` in Python, and `astype(str)` in pandas (which renders NaN as
      "nan"); a `datetime` prints as "YYYY-MM-DD 00:00:00". */
  function Show(v: Value): (r: string)
    ensures !v.Text? ==> r != [] && !IsSpace(r[0]) && !IsSpace(r[|r| - 1]) && ',' !in r
  {
    match v
    case Missing => "nan"
    case Text(s) => s
    case Int(n) => IntToString(n)
    case Amount(c) => ShowAmount(c)
    case Date(y, m, d) =>
      var r := PadZeros(NatToString(y), 4) + "-" + PadZeros(NatToString(m), 2) + "-"
               + PadZeros(NatToString(d), 2) + " 00:00:00";
      assert IsDigit(r[0]);
      assert forall i :: 0 <= i < |r| ==> r[i] != ',';
      r
  }

  /** The value in hundredths of a fraction written with at most two digits. */
  function FractionCents(f: string): (c: nat)
    requires AllDigits(f) && |f| <= 2
    ensures c < 100
  {
    if |f| == 0 then 0
    else if |f| == 1 then 10 * DigitValue(f[0])
    else 10 * DigitValue(f[0]) + DigitValue(f[1])
  }

  /** `pd.to_numeric(s, errors='coerce')` on one text token: an optional sign,
      then digits, optionally a point and at most two decimals (with at least one
      digit in all); integers stay `int`, decimals become `float`; anything else
      is coerced to NaN. */
  function ParseNumber(s: string): (v: Value)
    ensures v.Missing? || v.Int? || v.Amount?
  {
    var signed := s != [] && (s[0] == '-' || s[0] == '+');
    var sign := if s != [] && s[0] == '-' then -1 else 1;
    var body := if signed then s[1..] else s;
    if '.' !in body then
      if IsDigits(body) then Int(sign * ParseDigits(body)) else Missing
    else
      var k := IndexOf(body, '.');
      var whole := body[..k];
      var frac := body[k + 1..];
      if AllDigits(whole) && AllDigits(frac) && |frac| <= 2 && |whole| + |frac| > 0 then
        Amount(sign * (100 * ParseDigits(whole) + FractionCents(frac)))
      else
        Missing
  }

  lemma DigitsHaveNoPoint(s: string)
    requires AllDigits(s)
    ensures '.' !in s
  {
  }

  /** Reading back `str(n)` of an integer gives the same integer. */
  lemma ParseShowInt(n: int)
    ensures ParseNumber(Show(Int(n))) == Int(n)
  {
    var s := IntToString(n);
    var body := if n < 0 then NatToString(-n) else NatToString(n);
    if n < 0 {
      assert s[1..] == body;
    }
    DigitsHaveNoPoint(body);
    ParseNatToString(if n < 0 then -n else n);
  }

  lemma FractionRoundTrip(f: nat)
    requires f < 100
    ensures FractionCents(FractionText(f)) == f
  {
  }

  /** `to_numeric` on an unsigned decimal `w.f`. */
  lemma ParseDecimal(w: string, f: string)
    requires IsDigits(w) && AllDigits(f) && 1 <= |f| <= 2
    ensures ParseNumber(w + "." + f) == Amount(100 * ParseDigits(w) + FractionCents(f))
  {
    var body := w + "." + f;
    assert body[0] == w[0];
    DigitsHaveNoPoint(w);
    assert body == w + ['.'] + f;
    IndexOfAfter(w, '.', f);
    assert body[..|w|] == w;
    assert body[|w| + 1..] == f;
  }

  /** `to_numeric` on a negative decimal `-w.f`. */
  lemma ParseNegativeDecimal(w: string, f: string)
    requires IsDigits(w) && AllDigits(f) && 1 <= |f| <= 2
    ensures ParseNumber("-" + w + "." + f) == Amount(-(100 * ParseDigits(w) + FractionCents(f)))
  {
    var body := w + "." + f;
    assert "-" + w + "." + f == "-" + body;
    assert ("-" + body)[1..] == body;
    DigitsHaveNoPoint(w);
    assert body == w + ['.'] + f;
    IndexOfAfter(w, '.', f);
    assert body[..|w|] == w;
    assert body[|w| + 1..] == f;
  }

  /** Reading back `str(x)` of an amount gives the same amount, to the cent. */
  lemma ParseShowAmount(c: int)
    ensures ParseNumber(Show(Amount(c))) == Amount(c)
  {
    var a := if c < 0 then -c else c;
    var w := NatToString(a / 100);
    var f := FractionText(a % 100);
    ParseNatToString(a / 100);
    FractionRoundTrip(a % 100);
    if c < 0 {
      assert ShowAmount(c) == "-" + w + "." + f;
      ParseNegativeDecimal(w, f);
    } else {
      assert ShowAmount(c) == w + "." + f;
      ParseDecimal(w, f);
    }
  }

  /** The number a numeric value holds, in hundredths. pandas' `sum` skips NaN,
      so anything that is not a number counts as 0. */
  function Cents(v: Value): int {
    match v
    case Int(n) => 100 * n
    case Amount(c) => c
    case _ => 0
  }

  /** Python's `==` and `hash` on numbers: `100 == 100.0`. Values that compare
      equal in a pandas key column have the same canonical form. */
  function Canon(v: Value): (r: Value)
    ensures r.Int? == false
    ensures (v.Int? || v.Amount?) ==> r == Amount(Cents(v))
    ensures !(v.Int? || v.Amount?) ==> r == v
  {
    if v.Int? then Amount(100 * v.n) else v
  }
}

=== FILE: wrappers.dfy ===
/** Failure-compatible wrappers used throughout the model.
    - Option<T>: a value that may be absent (Python `None`).
    - Result<T>: a value, or the exception that would have been raised instead,
      carried as its message. `:-` propagates a failure the way an uncaught
      Python exception unwinds to the caller. */
module Wrappers {

  datatype Option<+T> = None | Some(value: T)

  datatype Result<+T> = Success(value: T) | Failure(error: string) {

    predicate IsFailure() {
      Failure?
    }

    function PropagateFailure<U>(): Result<U>
      requires Failure?
    {
      Failure(error)
    }

    function Extract(): T
      requires Success?
    {
      value
    }
  }
}
